=== FILE: README.md ===
# fml — a verified model of the command helper's core

`fml` turns a natural-language question into a shell command by asking Google
Gemini. The model covers the four pieces of logic that do not depend on I/O:

- **Response validation.** This is the `Flag` / `AICommandResponse` pydantic
  schema (`fml/schemas.py`). It is modelled as a validator over a parsed JSON
  tree that returns either the record or a non-empty list of
  (location, kind) errors.
  - Every field is required.
  - Strings are never coerced.
  - `flags` must be a list.
  - One bad element rejects the whole response.
  - Errors are collected rather than stopping at the first one.
  - Extra keys are ignored.
  - Serialising a record and validating it gives the record back.
- **System information** (`fml/gather_system_info.py`). This resolves the user's
  shell: from `SHELL`, or on Windows from `COMSPEC` (default `cmd.exe`) by a
  case-insensitive substring test, or falls back to `unknown_shell`. Only the
  last path component is kept, and the other platform fields are copied
  unchanged.
- **The Gemini provider** (`fml/ai_providers/gemini_service.py`).
  - The `GeminiModels` enum and `get_supported_models`.
  - The `GeminiService` class. Its constructor keeps the model name and the
    instruction file's content.
  - `generate_command`. It sends exactly one request, then maps what the
    backend returned to a validated response, an `API Error: …` message or the
    generic `An unexpected error occurred: …` message.
- **The model table** (`fml/ai_providers/models.py`). This is `MODELS`, plus the
  selector that looks a model name up in it, checks the credential and
  constructs the service.

Everything the program reads from the outside is a parameter:
- the platform queries, the environment variables and the current directory;
- the backend call, which becomes a function from request to outcome;
- the file read, which becomes a function from path to content.

Modules:

| file | module | models |
|---|---|---|
| `wrappers.dfy` | `Wrappers` | `Option` |
| `strings.dfy` | `Strings` | `in` on strings, `str.lower`, `os.path.basename`, `str.join`, `str(n)` |
| `json_values.dfy` | `JsonValues` | the parsed JSON tree and key lookup |
| `schemas.dfy` | `Schemas` | `fml/schemas.py`: validator, serialiser, JSON schema, error text |
| `gather_system_info.dfy` | `GatherSystemInfo` | `fml/gather_system_info.py` |
| `gemini_service.dfy` | `Gemini` | `fml/ai_providers/gemini_service.py` |
| `models.dfy` | `Models` | `fml/ai_providers/models.py` and the selector |

## Model

| member | source | states |
|---|---|---|
| Schemas.ValidateString | fml/schemas.py:5-6 | A required `str` field is valid iff it is present and a JSON string; the record gets that exact string. Otherwise there is one error at the field: `Missing` when absent, a string-type error otherwise (null, numbers, booleans are never coerced). |
| Schemas.ValidateFlag | fml/schemas.py:4-6 | A `Flag` validates iff it is an object with string `flag` and `description`. The value is the flag those fields denote, and a rejection always carries errors. |
| Schemas.ValidateFlagItems | fml/schemas.py:10 | A list of flags validates iff every element is a valid flag. The result has one flag per element, in array order, and a rejection always carries errors. |
| Schemas.ValidateFlagList | fml/schemas.py:10 | `flags` validates iff it is present, is an array and every element is a valid flag. The value then has one flag per element, each the flag that element denotes, in array order. Anything else is rejected with errors. |
| Schemas.Validate | fml/schemas.py:8-11 | A document validates iff it is well formed (object, string `explanation` and `command`, array `flags` of valid flags). The record is exactly the one the document denotes, and otherwise the error list is non-empty. |
| Schemas.RoundTrip | tests/test_gemini_service.py:58-87 | Serialising any record and validating it gives the same record back, including empty strings and an empty flag list. |
| Schemas.MissingFieldReported | tests/test_schemas.py:76-103 | A missing `explanation`, `flags` or `command` rejects the response with a `Missing` error naming that field. |
| Schemas.StringFieldNotCoerced | tests/test_schemas.py:105-146 | A non-string `explanation` or `command` (null or a number included) rejects the response with a string-type error at that field. |
| Schemas.FlagsNotListReported | tests/test_schemas.py:115-122 | A `flags` value that is not an array is a list-type error at `flags`. |
| Schemas.ItemErrorsCollected | fml/schemas.py:10 | Every error of the element at index k is among the list's errors, whatever the other elements hold, so validation does not stop at the first bad element. |
| Schemas.EarlierItemErrorsCollected | fml/schemas.py:10 | The same, for an element before the last one. |
| Schemas.FlagItemsErrorsInOrder | fml/schemas.py:10 | The errors of the flag list are exactly the errors of its elements, each validated on its own, concatenated in index order. |
| Schemas.FlagsErrorsCollected | fml/schemas.py:8-11 | Every error of the `flags` field is an error of the response, whatever the other fields hold. |
| Schemas.FlagFieldReported | tests/test_schemas.py:13-56 | Inside flag k, a missing `flag`/`description` is reported as `Missing` at `flags.k.<key>`, and a non-string one as a string-type error there. |
| Schemas.NonObjectFlagReported | fml/schemas.py:10 | A flags element that is not an object is a `Flag` type error at `flags.k`. |
| Schemas.ItemLackingBothKeys | tests/test_schemas.py:124-136 | One element lacking both keys rejects the whole response, and both missing fields are reported. |
| Schemas.ExtraKeysIgnored | tests/test_schemas.py:148-160 | Adding a key other than the three fields gives exactly the same validation result. |
| Schemas.FlagErrorsUnder | fml/schemas.py:10 | Errors of element k lie under location `flags.k`. |
| Schemas.FlagItemsErrorsUnder | fml/schemas.py:10 | Every error of the flag list lies under `flags.i` for an index i of the list, and is an error of element i validated on its own. |
| Schemas.PrefixErrorsUnder | fml/schemas.py:10 | The same, for an error of all but the last element. |
| Schemas.ErrorsLocated | fml/schemas.py:8-11 | An error sits at the root exactly when the document is not an object; otherwise it lies under `explanation`, `flags` or `command`. |
| Schemas.ErrorsAreSound | fml/schemas.py:8-11 | Every reported error is a real defect of the document. A `Missing` error names a key absent from the object its location leads to. A type error sits on a value of another JSON type: not a string, not an array, or not an object. |
| Schemas.StringErrorSound | fml/schemas.py:5-11 | An error of a string field is a real defect of the object holding it: the key is absent, or its value is not a JSON string. |
| Schemas.FlagErrorSound | fml/schemas.py:4-6 | An error of flag element k, read relative to the element, is a real defect of it. |
| Schemas.FlagItemErrorSound | fml/schemas.py:10 | An error of the flag list is a real defect of the document at its full location. |
| Schemas.FlagErrorsDistinct | fml/schemas.py:4-6 | The errors of one flag element have pairwise distinct locations: at most one for `flag` and one for `description`. |
| Schemas.FlagErrorsInFieldOrder | fml/schemas.py:4-6 | One flag element has at most two errors, and when it has two, the `flag` error comes before the `description` error, in declaration order. |
| Schemas.PrefixAndLastApart | fml/schemas.py:10 | An error of an earlier element and an error of the last element never share a location, since their indexes differ. |
| Schemas.FlagItemsErrorsDistinct | fml/schemas.py:10 | The errors of the flag list have pairwise distinct locations. |
| Schemas.FlagListErrorsDistinct | fml/schemas.py:10 | The errors of the `flags` field, whether array or not, have pairwise distinct locations. |
| Schemas.ErrorsDistinct | fml/schemas.py:8-11 | Each location is reported at most once: the errors of any document have pairwise distinct locations. |
| Schemas.FlagListErrorsUnder | fml/schemas.py:10 | Every error of the `flags` field lies under `flags`. |
| Schemas.ErrorsInFieldOrder | fml/schemas.py:8-11 | Errors come field by field in declaration order: all those of `explanation`, then all those of `flags`, then all those of `command`. |
| Schemas.OneErrorHeader | fml/ai_providers/gemini_service.py:44 | The text of a single error opens with `1 validation error for AICommandResponse`, in the singular. |
| Schemas.SchemaRequiredIsEnforced | fml/ai_providers/gemini_service.py:40 | Every name listed as required in the schema sent to the backend is reported as missing when absent, and is present in every accepted document. |
| Schemas.FlagSchemaRequiredIsEnforced | fml/ai_providers/gemini_service.py:40 | Every name the `Flag` definition of that schema requires is reported missing at `flags.k.<name>` when element k lacks it. |
| Schemas.ErrorTextHasParts | fml/ai_providers/gemini_service.py:44 | One error's text contains its dotted location and its message. |
| Schemas.ErrorTextNamesEachError | fml/ai_providers/gemini_service.py:44 | The text of a validation error contains the location and the message of every error. |
| Strings.ContainsSpec | fml/gather_system_info.py:24-26 | The substring test holds exactly when the substring occurs at some index. |
| Strings.BasenameSpec | fml/gather_system_info.py:34 | The basename is the longest `/`-free suffix: a suffix, with no `/`, preceded by `/` whenever shorter than the path. |
| Strings.BasenameOfPlainName | fml/gather_system_info.py:34 | A name without `/` is its own basename. |
| Strings.ToLowerSpec | fml/gather_system_info.py:24-26 | `str.lower` on ASCII text keeps the length, leaves no upper-case letter and changes nothing but the case of letters. |
| Strings.LowersAlikeIffSameUpToCase | fml/gather_system_info.py:24-26 | Two strings lower-case to the same string exactly when they differ only in the case of ASCII letters. |
| Strings.NatToStringSpec | fml/ai_providers/gemini_service.py:44 | `str(n)`, used for list indexes in locations and for the error count, is a non-empty string of decimal digits with no leading zero (unless n is 0) whose decimal value is n. |
| GatherSystemInfo.GetSystemInfo | fml/gather_system_info.py:13-42 | The OS name, cwd, architecture and Python version are copied unchanged. The shell is a suffix of the resolved setting, no longer than it, and holds no `/`. |
| GatherSystemInfo.ShellFromEnvironment | fml/gather_system_info.py:19-34 | With `SHELL` set and non-empty, on any OS, the shell is that value's last `/`-separated component. |
| GatherSystemInfo.FallbackNamesArePlain | fml/gather_system_info.py:25-34 | The fallback names survive the basename step unchanged. |
| GatherSystemInfo.WindowsPowerShell | fml/gather_system_info.py:20-25 | On Windows without `SHELL`, a `COMSPEC` whose lower-case form contains `powershell.exe` or `pwsh.exe` gives `powershell.exe`, even when it also contains `cmd.exe`. |
| GatherSystemInfo.WindowsCmd | fml/gather_system_info.py:26-27 | Otherwise a `COMSPEC` containing `cmd.exe` gives `cmd.exe`. |
| GatherSystemInfo.WindowsUnknown | fml/gather_system_info.py:28-29 | Any other Windows `COMSPEC` gives `unknown_windows_shell`. |
| GatherSystemInfo.WindowsDefaultComspec | fml/gather_system_info.py:23 | An unset `COMSPEC` defaults to `cmd.exe`, which gives `cmd.exe`. |
| GatherSystemInfo.ComspecCaseInsensitive | fml/gather_system_info.py:24-27 | Two `COMSPEC` values that differ only in the case of ASCII letters (`SameUpToCase`, defined without lower-casing) give the same result. |
| GatherSystemInfo.UpperCaseCmdComspec | fml/gather_system_info.py:23-27 | On Windows without `SHELL`, `COMSPEC` = `C:\WINDOWS\SYSTEM32\CMD.EXE` gives `cmd.exe`. |
| GatherSystemInfo.UpperCasePwshComspec | fml/gather_system_info.py:23-25 | On Windows without `SHELL`, `COMSPEC` = `C:\PS7\PWSH.EXE` gives `powershell.exe`. |
| GatherSystemInfo.UnknownShellElsewhere | fml/gather_system_info.py:30-31 | Off Windows without `SHELL`, the shell is `unknown_shell`. |
| Gemini.GetSupportedModels | fml/ai_providers/gemini_service.py:28-30 | One entry per enum member, each that member's value, in declaration order. |
| Gemini.SupportedModelsAreTheEnum | fml/ai_providers/gemini_service.py:10-12 | The list is exactly `["gemini-1.5-flash", "gemini-1.5-pro"]` and contains every enum member's value. |
| Gemini.MapOutcome | fml/ai_providers/gemini_service.py:43-49 | The result is a response iff the backend replied with a document that validates, and then it is the validated record. An `APIError` becomes `API Error: <message> (Code: <code>)`. Any other exception becomes `An unexpected error occurred: ` followed by its text. A reply that fails validation becomes the same prefix followed by the validation error text. |
| Gemini.ReplyFieldsReturned | fml/ai_providers/gemini_service.py:44 | A successful result carries the reply's explanation, command and flags, element by element and in order. |
| Gemini.ReplyRoundTrip | fml/ai_providers/gemini_service.py:44 | A reply that serialises a record yields exactly that record. |
| Gemini.ApiErrorReported | fml/ai_providers/gemini_service.py:45-47 | An `APIError` is reported as `API Error: <message> (Code: <code>)`, whatever text its code renders to. The message contains the error message and the code, and never starts with the generic prefix. |
| Gemini.OtherErrorReported | fml/ai_providers/gemini_service.py:48-49 | Any other exception is reported after the generic prefix with its own text kept, and never as an API error. |
| Gemini.InvalidReplyReported | fml/ai_providers/gemini_service.py:44-49 | A reply that fails validation gets the generic message, which names every offending location and its complaint. |
| Gemini.SingleErrorHeader | fml/ai_providers/gemini_service.py:44-49 | A reply rejected with exactly one error yields a message that opens with the generic prefix and `1 validation error for AICommandResponse`. |
| Gemini.FlagsStringReplyReported | tests/test_gemini_service.py:133-151 | The reply `{"explanation": "invalid json", "flags": "not a list", "command": "invalid"}` has exactly one error, a list-type error at `flags`, and its message counts one validation error. The test expects the newer `AI Response Format Error` wording; the code gives the generic prefix. |
| Gemini.GeminiService.RequestFor | fml/ai_providers/gemini_service.py:34-42 | The request carries the stored model name, the query as contents, the stored system instruction, the mime type `application/json` and the response schema. |
| Gemini.GeminiService.GenerateCommand | fml/ai_providers/gemini_service.py:32-49 | Exactly one request is appended to those sent (no retry), and the result is that request's outcome mapped by `MapOutcome`. |
| Gemini.GeminiService.constructor | fml/ai_providers/gemini_service.py:20-26 | Keeps the key and the model name unchanged, and the content of the instruction file at the given path; nothing is sent. |
| Models.ModelNamesAreTheKeys | fml/ai_providers/models.py:9-17 | The ordered name list holds exactly the keys of `MODELS`, one entry per key. |
| Models.ModelsTable | fml/ai_providers/models.py:9-17 | `MODELS` has the single key `gemini-1.5-flash`, served by `GeminiService` with its key in `GEMINI_API_KEY`. |
| Models.TableModelsAreSupported | fml/ai_providers/models.py:10 | Every `MODELS` key is a supported Gemini model; `gemini-1.5-pro` is supported but has no entry. |
| Models.SelectModel | tests/test_main_functions.py:57-116 | Unsupported iff the name is not a key, and then the message is the unsupported-model message for that name. Missing-key iff it is a key whose credential is unset or empty, and then the message names the descriptor's variable and the model. Otherwise ready, with the credential's value, the descriptor's prompt file and the name unchanged. |
| Models.UnsupportedListsEveryModel | tests/test_main_functions.py:82-97 | The message refusing an unknown name starts `Unsupported model '<name>'. `, contains the name, contains `Supported models are: ` and contains every known model name. |
| Models.MissingKeyNamesVariableAndModel | tests/test_main_functions.py:100-116 | A known name without its credential is refused with a message naming the environment variable and the model. |
| Models.SelectedModelIsSupported | fml/ai_providers/models.py:9-17 | A selected model is one the Gemini service supports. |
| Models.InitializeAiService | tests/test_main_functions.py:57-116 | A service is constructed exactly when the selection is ready, and then with the credential, the prompt file's content and the model name, with nothing sent yet. Otherwise no service is constructed and the selector's refusal is returned with its kind kept: `Unsupported` (the tests' `ValueError`) exactly for an unknown name, and `MissingKey` (their `RuntimeError`) for a known one. |

## Left out

- The network call (`genai.Client` / `generate_content`) is a parameter `backend` from request to outcome. Client creation and its key check are not modelled; the key is only stored.
- Reading the system-instruction file is the parameter `readFile`. Its I/O errors are not modelled.
- JSON text parsing inside `model_validate_json` is not modelled. Validation works on an already parsed tree, and malformed JSON text is one of the "other" backend failures. Numbers are integers only, with no floating point.
- `platform.system()`, `platform.machine()`, `os.getcwd()`, `platform.python_version()` and the `SHELL` / `COMSPEC` lookups are parameters. Basename follows POSIX `/` semantics, not Windows `ntpath` (which also splits at `\`). Lower-casing covers ASCII letters only.
- `fml/ai_service.py` (the abstract `AIService` base class) has no behaviour and is not modelled as a separate type. `GeminiService` stands alone.
- `fml/__main__.py` and `fml.py` are not part of this model: argument parsing, printing, `sys.exit`, and the hard-coded `GEMINI_API_KEY` check in `__main__`. The output formatter and clipboard modules are not part of this model either.
- The selector `_initialize_ai_service` is not in the sources. `Models.SelectModel` and `Models.InitializeAiService` follow what `tests/test_main_functions.py` asserts, with two differences:
  - the `prompt_module` / `prompt_variable` fields those tests use do not exist in `MODELS`, so the service is handed the descriptor's `prompt_file`;
  - the shown constructor reads that path.
- Pydantic's error text is simplified: a count header, then each error's dotted location and message, without the `[type=…, input_value=…]` trailer and documentation URL. Messages for a non-object are modelled as the model-type message.
- The JSON schema is modelled as the object pydantic generates (`$defs`, `properties`, `required`, `title`, `type`). Key order is not modelled (objects are maps).
- Where the tests disagree with the code, the model follows the code:
  - the constructor takes a path, not content;
  - `generate_command` takes only the query;
  - the messages are `API Error: …` / `An unexpected error occurred: …`, not "AI Response Format Error" or "…during AI interaction";
  - a Git Bash `COMSPEC` gives `unknown_windows_shell`, not `bash.exe`.
- The unsupported-model message lists only `gemini-1.5-flash`, the one key of `MODELS`, although `gemini-1.5-pro` is a supported Gemini model.
- `Gemini.ApiError` carries the error code as the text Python renders for it (`str(e.code)`), so integer, string and missing codes all fit. Converting a code to text is not modelled.
- The shown `fml/schemas.py` defines no `SystemInfo`, although `fml/gather_system_info.py:4` imports it from there. `GatherSystemInfo.SystemInfo` is assumed to be a plain record of five string fields, named as at `fml/gather_system_info.py:36-42`, with no validation of its own.
- The backend is a pure function from request to outcome, not an object with its own call count. "Exactly one request, no retry" is stated through the service's `sent` list, which `GenerateCommand` extends by one entry.
- Empty strings are accepted in every string field, as pydantic does: the schema sets no minimum length.

=== FILE: gather_system_info.dfy ===
/** `get_system_info`: the snapshot of the user's platform sent along with a
    query. The platform queries (`platform.system()`, `platform.machine()`,
    `os.getcwd()`, `platform.python_version()`) and the two environment
    variables `SHELL` and `COMSPEC` are parameters; `None` stands for an unset
    variable. */
module GatherSystemInfo {
  import opened Wrappers
  import opened Strings

  datatype SystemInfo = SystemInfo(
    osName: string,
    shell: string,
    cwd: string,
    architecture: string,
    pythonVersion: string)

  /** Python truthiness of an environment lookup: unset and empty are both false. */
  predicate IsSet(v: Option<string>) {
    v.Some? && v.value != ""
  }

  /** What the `COMSPEC` fallback on Windows resolves to; it looks only at
      the lower-cased value, and a PowerShell match wins over a cmd match. */
  function WindowsShell(comspec: string): string {
    var lower := ToLower(comspec);
    if Contains(lower, "powershell.exe") || Contains(lower, "pwsh.exe") then "powershell.exe"
    else if Contains(lower, "cmd.exe") then "cmd.exe"
    else "unknown_windows_shell"
  }

  /** The shell before its directory part is dropped: `SHELL` when set,
      otherwise the Windows fallback through `COMSPEC` (default `cmd.exe`),
      otherwise `unknown_shell`. */
  function ShellSetting(osName: string, shellEnv: Option<string>, comspecEnv: Option<string>): string {
    if !IsSet(shellEnv) && osName == "Windows" then WindowsShell(comspecEnv.GetOr("cmd.exe"))
    else if !IsSet(shellEnv) then "unknown_shell"
    else shellEnv.value
  }

  function GetSystemInfo(
    osName: string, architecture: string, cwd: string, pythonVersion: string,
    shellEnv: Option<string>, comspecEnv: Option<string>): (r: SystemInfo)
    ensures r.osName == osName && r.cwd == cwd
    ensures r.architecture == architecture && r.pythonVersion == pythonVersion
    ensures '/' !in r.shell
    ensures |r.shell| <= |ShellSetting(osName, shellEnv, comspecEnv)|
    ensures r.shell == ShellSetting(osName, shellEnv, comspecEnv)[|ShellSetting(osName, shellEnv, comspecEnv)| - |r.shell|..]
  {
    BasenameSpec(ShellSetting(osName, shellEnv, comspecEnv));
    SystemInfo(osName, Basename(ShellSetting(osName, shellEnv, comspecEnv)), cwd, architecture, pythonVersion)
  }

  // ---------------------------------------------------------------------
  // The shell decision, case by case.

  /** A set `SHELL` decides the shell on every OS: its last `/`-separated
      component, i.e. the longest `/`-free suffix. */
  lemma ShellFromEnvironment(
    osName: string, architecture: string, cwd: string, pythonVersion: string,
    shellEnv: Option<string>, comspecEnv: Option<string>)
    requires IsSet(shellEnv)
    ensures var s := GetSystemInfo(osName, architecture, cwd, pythonVersion, shellEnv, comspecEnv).shell;
            var p := shellEnv.value;
            |s| <= |p| && s == p[|p| - |s|..] && '/' !in s && (|s| < |p| ==> p[|p| - |s| - 1] == '/')
  {
    BasenameSpec(shellEnv.value);
  }

  /** The literal shell names the fallbacks produce have no directory part. */
  lemma FallbackNamesArePlain()
    ensures Basename("powershell.exe") == "powershell.exe"
    ensures Basename("cmd.exe") == "cmd.exe"
    ensures Basename("unknown_windows_shell") == "unknown_windows_shell"
    ensures Basename("unknown_shell") == "unknown_shell"
  {
    BasenameOfPlainName("powershell.exe");
    BasenameOfPlainName("cmd.exe");
    BasenameOfPlainName("unknown_windows_shell");
    BasenameOfPlainName("unknown_shell");
  }

  /** On Windows without `SHELL`, a `COMSPEC` naming PowerShell (in any
      letter case) gives `powershell.exe`, even when it also mentions cmd.exe. */
  lemma WindowsPowerShell(
    architecture: string, cwd: string, pythonVersion: string,
    shellEnv: Option<string>, comspecEnv: Option<string>)
    requires !IsSet(shellEnv)
    requires var lower := ToLower(comspecEnv.GetOr("cmd.exe"));
             Contains(lower, "powershell.exe") || Contains(lower, "pwsh.exe")
    ensures GetSystemInfo("Windows", architecture, cwd, pythonVersion, shellEnv, comspecEnv).shell == "powershell.exe"
  {
    FallbackNamesArePlain();
  }

  /** Otherwise a `COMSPEC` naming cmd.exe gives `cmd.exe`. */
  lemma WindowsCmd(
    architecture: string, cwd: string, pythonVersion: string,
    shellEnv: Option<string>, comspecEnv: Option<string>)
    requires !IsSet(shellEnv)
    requires var lower := ToLower(comspecEnv.GetOr("cmd.exe"));
             !Contains(lower, "powershell.exe") && !Contains(lower, "pwsh.exe") && Contains(lower, "cmd.exe")
    ensures GetSystemInfo("Windows", architecture, cwd, pythonVersion, shellEnv, comspecEnv).shell == "cmd.exe"
  {
    FallbackNamesArePlain();
  }

  /** Any other `COMSPEC` (an empty one included) gives `unknown_windows_shell`. */
  lemma WindowsUnknown(
    architecture: string, cwd: string, pythonVersion: string,
    shellEnv: Option<string>, comspecEnv: Option<string>)
    requires !IsSet(shellEnv)
    requires var lower := ToLower(comspecEnv.GetOr("cmd.exe"));
             !Contains(lower, "powershell.exe") && !Contains(lower, "pwsh.exe") && !Contains(lower, "cmd.exe")
    ensures GetSystemInfo("Windows", architecture, cwd, pythonVersion, shellEnv, comspecEnv).shell == "unknown_windows_shell"
  {
    FallbackNamesArePlain();
  }

  /** An unset `COMSPEC` defaults to `cmd.exe`. */
  lemma WindowsDefaultComspec(
    architecture: string, cwd: string, pythonVersion: string, shellEnv: Option<string>)
    requires !IsSet(shellEnv)
    ensures GetSystemInfo("Windows", architecture, cwd, pythonVersion, shellEnv, None).shell == "cmd.exe"
  {
    assert ToLower("cmd.exe") == "cmd.exe";
    ContainsSelf("cmd.exe");
    WindowsCmd(architecture, cwd, pythonVersion, shellEnv, None);
  }

  /** Two `COMSPEC` values that differ only in the case of letters give the
      same outcome. */
  lemma ComspecCaseInsensitive(
    architecture: string, cwd: string, pythonVersion: string,
    shellEnv: Option<string>, comspec: string, comspec': string)
    requires SameUpToCase(comspec, comspec')
    ensures GetSystemInfo("Windows", architecture, cwd, pythonVersion, shellEnv, Some(comspec))
         == GetSystemInfo("Windows", architecture, cwd, pythonVersion, shellEnv, Some(comspec'))
  {
    LowersAlikeIffSameUpToCase(comspec, comspec');
  }

  /** The usual Windows value, written in upper case, gives `cmd.exe`. */
  lemma UpperCaseCmdComspec(
    architecture: string, cwd: string, pythonVersion: string, shellEnv: Option<string>)
    requires !IsSet(shellEnv)
    ensures GetSystemInfo("Windows", architecture, cwd, pythonVersion, shellEnv,
                          Some(@"C:\WINDOWS\SYSTEM32\CMD.EXE")).shell == "cmd.exe"
  {
    var dir := @"c:\windows\system32\";
    var lower := dir + "cmd.exe";
    SystemCmdLowered();
    assert 'p' !in dir && 'p' !in "cmd.exe";
    if Contains(lower, "powershell.exe") {
      ContainedCharsOccur(lower, "powershell.exe", 'p');
    }
    if Contains(lower, "pwsh.exe") {
      ContainedCharsOccur(lower, "pwsh.exe", 'p');
    }
    ContainsSelf("cmd.exe");
    ContainsInfix(dir, "cmd.exe", "", "cmd.exe");
    assert dir + "cmd.exe" + "" == lower;
    WindowsCmd(architecture, cwd, pythonVersion, shellEnv, Some(@"C:\WINDOWS\SYSTEM32\CMD.EXE"));
  }

  /** The upper-case system path of cmd.exe lower-cases as expected. */
  lemma SystemCmdLowered()
    ensures ToLower(@"C:\WINDOWS\SYSTEM32\CMD.EXE") == @"c:\windows\system32\" + "cmd.exe"
  {
    var lower := @"c:\windows\system32\" + "cmd.exe";
    assert ToLower(@"C:\WINDOWS\SYSTEM32\CMD.EXE") == lower;
  }

  /** A PowerShell 7 value, written in upper case, gives `powershell.exe`. */
  lemma UpperCasePwshComspec(
    architecture: string, cwd: string, pythonVersion: string, shellEnv: Option<string>)
    requires !IsSet(shellEnv)
    ensures GetSystemInfo("Windows", architecture, cwd, pythonVersion, shellEnv,
                          Some(@"C:\PS7\PWSH.EXE")).shell == "powershell.exe"
  {
    var dir := @"c:\ps7\";
    assert ToLower(@"C:\PS7\PWSH.EXE") == dir + "pwsh.exe";
    ContainsSelf("pwsh.exe");
    ContainsInfix(dir, "pwsh.exe", "", "pwsh.exe");
    assert dir + "pwsh.exe" + "" == dir + "pwsh.exe";
    WindowsPowerShell(architecture, cwd, pythonVersion, shellEnv, Some(@"C:\PS7\PWSH.EXE"));
  }

  /** Off Windows, without `SHELL`, the shell is `unknown_shell`. */
  lemma UnknownShellElsewhere(
    osName: string, architecture: string, cwd: string, pythonVersion: string,
    shellEnv: Option<string>, comspecEnv: Option<string>)
    requires !IsSet(shellEnv) && osName != "Windows"
    ensures GetSystemInfo(osName, architecture, cwd, pythonVersion, shellEnv, comspecEnv).shell == "unknown_shell"
  {
    FallbackNamesArePlain();
  }
}

=== FILE: gemini_service.dfy ===
/** The Gemini provider: the models it supports, the service object built
    from an API key, a system-instruction file and a model name, and
    `generate_command`, which sends one request and maps the backend's
    outcome to a validated response or a `RuntimeError` message.

    The backend (`client.models.generate_content`) is a parameter: a
    function from the request sent to what came back, which is a parsed JSON
    reply, an `APIError` with its message and code, or any other exception's
    message. Reading the instruction file is the parameter `readFile`. */
module Gemini {
  import opened Wrappers
  import opened Strings
  import opened JsonValues
  import opened Schemas

  /** The `GeminiModels` enum, in declaration order. */
  datatype GeminiModel = Gemini15Flash | Gemini15Pro {
    function Value(): string {
      match this
      case Gemini15Flash => "gemini-1.5-flash"
      case Gemini15Pro => "gemini-1.5-pro"
    }
  }

  const DeclaredModels: seq<GeminiModel> := [Gemini15Flash, Gemini15Pro]

  /** `get_supported_models`: the value of every enum member, in declaration order. */
  function GetSupportedModels(): (r: seq<string>)
    ensures |r| == |DeclaredModels|
    ensures forall i :: 0 <= i < |r| ==> r[i] == DeclaredModels[i].Value()
  {
    seq(|DeclaredModels|, i requires 0 <= i < |DeclaredModels| => DeclaredModels[i].Value())
  }

  /** The list is exactly the two model names, in order, each once, and it
      names every enum member. */
  lemma SupportedModelsAreTheEnum()
    ensures GetSupportedModels() == ["gemini-1.5-flash", "gemini-1.5-pro"]
    ensures forall m: GeminiModel :: m.Value() in GetSupportedModels()
  {
    var r := GetSupportedModels();
    assert r[0] == "gemini-1.5-flash" && r[1] == "gemini-1.5-pro";
    forall m: GeminiModel ensures m.Value() in r {
      if m == Gemini15Flash { assert r[0] == m.Value(); } else { assert r[1] == m.Value(); }
    }
  }

  // ---------------------------------------------------------------------
  // One call to the backend.

  /** `GenerateContentConfig`: the system instruction, the mime type and the
      response schema. */
  datatype GenerateRequest = GenerateRequest(
    model: string,
    contents: string,
    systemInstruction: string,
    responseMimeType: string,
    responseSchema: Json)

  datatype BackendOutcome =
    | Reply(body: Json)                       // `response.text`, parsed
    | ApiError(message: string, code: string) // `google.genai.errors.APIError`, its code as `str(e.code)`
    | OtherError(message: string)             // any other exception, as `str(e)`

  datatype GenerateResult = Response(value: AICommandResponse) | RuntimeError(message: string)

  const UnexpectedPrefix := "An unexpected error occurred: "
  const ApiErrorPrefix := "API Error: "

  function ApiErrorMessage(message: string, code: string): string {
    ApiErrorPrefix + message + " (Code: " + code + ")"
  }

  /** The `try`/`except` of `generate_command`: a reply that validates is the
      response; an `APIError` gets its own message (its clause comes first);
      every other failure, a reply that does not validate included, gets the
      generic message. No partial response is ever returned. */
  function MapOutcome(outcome: BackendOutcome): (r: GenerateResult)
    ensures r.Response? <==> outcome.Reply? && IsResponseJson(outcome.body)
    ensures r.Response? ==> Validate(outcome.body) == Valid(r.value)
    ensures outcome.ApiError? ==> r == RuntimeError(ApiErrorMessage(outcome.message, outcome.code))
    ensures outcome.OtherError? ==> r == RuntimeError(UnexpectedPrefix + outcome.message)
    ensures outcome.Reply? && !IsResponseJson(outcome.body) ==>
              r == RuntimeError(UnexpectedPrefix + ValidationErrorText(Validate(outcome.body).errors))
    ensures r.RuntimeError? && !outcome.ApiError? ==> UnexpectedPrefix <= r.message
  {
    match outcome
    case Reply(body) =>
      (match Validate(body)
       case Valid(response) => Response(response)
       case Invalid(errors) => RuntimeError(UnexpectedPrefix + ValidationErrorText(errors)))
    case ApiError(message, code) => RuntimeError(ApiErrorMessage(message, code))
    case OtherError(message) => RuntimeError(UnexpectedPrefix + message)
  }

  /** A successful call returns the reply's own fields: its explanation, its
      command and its flags in order. */
  lemma ReplyFieldsReturned(body: Json)
    requires MapOutcome(Reply(body)).Response?
    ensures var r := MapOutcome(Reply(body)).value;
            var items := body.fields["flags"].items;
            && body.fields["explanation"] == JString(r.explanation)
            && body.fields["command"] == JString(r.command)
            && |r.flags| == |items|
            && forall i :: 0 <= i < |items| ==>
                 items[i].fields["flag"] == JString(r.flags[i].flag)
                 && items[i].fields["description"] == JString(r.flags[i].description)
  {
    var r := MapOutcome(Reply(body)).value;
    assert r == ResponseOf(body);
  }

  /** A reply that serialises a response yields exactly that response. */
  lemma ReplyRoundTrip(response: AICommandResponse)
    ensures MapOutcome(Reply(ToJson(response))) == Response(response)
  {
    RoundTrip(response);
  }

  /** An `APIError` reports its message and its code, and is never reported
      with the generic message. */
  lemma ApiErrorReported(message: string, code: string)
    ensures MapOutcome(ApiError(message, code)).message == ApiErrorMessage(message, code)
    ensures Contains(MapOutcome(ApiError(message, code)).message, message)
    ensures Contains(MapOutcome(ApiError(message, code)).message, code)
    ensures !(UnexpectedPrefix <= MapOutcome(ApiError(message, code)).message)
  {
    var text := ApiErrorMessage(message, code);
    ContainsSelf(message);
    ContainsInfix(ApiErrorPrefix, message, " (Code: " + code + ")", message);
    assert text == ApiErrorPrefix + message + (" (Code: " + code + ")");
    ContainsSelf(code);
    ContainsInfix(ApiErrorPrefix + message + " (Code: ", code, ")", code);
    assert text[1] == 'P' && UnexpectedPrefix[1] == 'n';
  }

  /** Any other failure keeps the exception's own text after the generic
      prefix, and is never reported as an API error. */
  lemma OtherErrorReported(message: string)
    ensures UnexpectedPrefix <= MapOutcome(OtherError(message)).message
    ensures Contains(MapOutcome(OtherError(message)).message, message)
    ensures !(ApiErrorPrefix <= MapOutcome(OtherError(message)).message)
  {
    var text := MapOutcome(OtherError(message)).message;
    ContainsSelf(message);
    ContainsInfix(UnexpectedPrefix, message, "", message);
    assert UnexpectedPrefix + message + "" == text;
    assert text[1] == 'n' && ApiErrorPrefix[1] == 'P';
  }

  /** A reply that fails validation is reported with the generic message,
      which names every offending location and its complaint. */
  lemma InvalidReplyReported(body: Json, k: nat)
    requires Validate(body).Invalid? && k < |Validate(body).errors|
    ensures var message := MapOutcome(Reply(body)).message;
            var e := Validate(body).errors[k];
            && UnexpectedPrefix <= message
            && Contains(message, LocText(e.loc))
            && Contains(message, KindMessage(e.kind))
  {
    var errors := Validate(body).errors;
    var e := errors[k];
    ErrorTextNamesEachError(errors, k);
    ContainsInfix(UnexpectedPrefix, ValidationErrorText(errors), "", LocText(e.loc));
    ContainsInfix(UnexpectedPrefix, ValidationErrorText(errors), "", KindMessage(e.kind));
    assert UnexpectedPrefix + ValidationErrorText(errors) + "" == MapOutcome(Reply(body)).message;
  }

  /** A reply rejected with a single error is reported with a message that
      counts one validation error. */
  lemma SingleErrorHeader(body: Json)
    requires Validate(body).Invalid? && |Validate(body).errors| == 1
    ensures UnexpectedPrefix + ("1" + SingularHeader) <= MapOutcome(Reply(body)).message
  {
    var errors := Validate(body).errors;
    assert MapOutcome(Reply(body)).message == UnexpectedPrefix + ValidationErrorText(errors);
    HeaderOfOneError(errors);
  }

  /** With one error, the message text opens with the prefix and the
      singular header. */
  lemma HeaderOfOneError(errors: seq<FieldError>)
    requires |errors| == 1
    ensures UnexpectedPrefix + ("1" + SingularHeader) <= UnexpectedPrefix + ValidationErrorText(errors)
  {
    OneErrorHeader(errors);
    PrefixOfConcat(UnexpectedPrefix, "1" + SingularHeader, ErrorsText(errors));
  }

  /** The reply whose `flags` is a string: one list-type error at `flags`,
      and a message that counts exactly one validation error. */
  lemma FlagsStringReplyReported()
    ensures var body := JObject(map[
              "explanation" := JString("invalid json"),
              "flags" := JString("not a list"),
              "command" := JString("invalid")]);
            && Validate(body).errors == [FieldError([Key("flags")], WrongType(ListType))]
            && UnexpectedPrefix + ("1" + SingularHeader) <= MapOutcome(Reply(body)).message
  {
    var m := map[
      "explanation" := JString("invalid json"),
      "flags" := JString("not a list"),
      "command" := JString("invalid")];
    assert Lookup(m, "explanation") == Some(JString("invalid json"));
    assert Lookup(m, "flags") == Some(JString("not a list"));
    assert Lookup(m, "command") == Some(JString("invalid"));
    assert Validate(JObject(m)).errors == [FieldError([Key("flags")], WrongType(ListType))];
    SingleErrorHeader(JObject(m));
  }

  // ---------------------------------------------------------------------
  // The service object.

  class GeminiService {
    /** The key the `genai.Client` was created with. */
    const apiKey: string
    const modelName: string
    const systemInstruction: string
    /** Every request sent through the client, oldest first. */
    var sent: seq<GenerateRequest>

    /** `__init__`: keeps the model name as given and the instruction file's
        content; sends nothing. */
    constructor (apiKey: string, systemInstructionPath: string, model: string, readFile: string -> string)
      ensures this.apiKey == apiKey
      ensures modelName == model
      ensures systemInstruction == readFile(systemInstructionPath)
      ensures sent == []
    {
      this.apiKey := apiKey;
      modelName := model;
      systemInstruction := readFile(systemInstructionPath);
      sent := [];
    }

    /** The one request `generate_command` sends for `query`. */
    function RequestFor(query: string): (req: GenerateRequest)
      reads this
      ensures req.model == modelName && req.contents == query
      ensures req.systemInstruction == systemInstruction
      ensures req.responseMimeType == "application/json" && req.responseSchema == ResponseSchema
    {
      GenerateRequest(modelName, query, systemInstruction, "application/json", ResponseSchema)
    }

    /** `generate_command`: exactly one request, no retry, and the outcome of
        that request mapped by `MapOutcome`. The backend is a pure function,
        so what counts as a request sent is an entry of `sent`. */
    method GenerateCommand(query: string, backend: GenerateRequest -> BackendOutcome) returns (r: GenerateResult)
      modifies this`sent
      ensures sent == old(sent) + [RequestFor(query)]
      ensures r == MapOutcome(backend(RequestFor(query)))
    {
      var request := RequestFor(query);
      sent := sent + [request];
      r := MapOutcome(backend(request));
    }
  }
}

=== FILE: json_values.dfy ===
/** A parsed JSON document, as pydantic's JSON parser hands it to validation.
    An object is a map: with repeated keys the last one wins. */
module JsonValues {
  import opened Wrappers

  datatype Json =
    | JNull
    | JBool(b: bool)
    | JNumber(n: int)
    | JString(s: string)
    | JArray(items: seq<Json>)
    | JObject(fields: map<string, Json>)

  /** The value stored under `key`, if any. */
  function Lookup(fields: map<string, Json>, key: string): (r: Option<Json>)
    ensures r.Some? <==> key in fields
    ensures r.Some? ==> r.value == fields[key]
  {
    if key in fields then Some(fields[key]) else None
  }
}

=== FILE: models.dfy ===
/** The `MODELS` table and the selector that consults it.

    `MODELS` maps a user-facing model name to the provider module, the
    service class, the environment variable holding the API key and the
    system-prompt file. The selector looks a name up by exact key, reads the
    credential from the environment (a parameter here) and either fails with
    a message or yields the arguments the service is constructed with. */
module Models {
  import opened Wrappers
  import opened Strings
  import Gemini

  datatype ModelProviderDetails = ModelProviderDetails(
    provider: string,
    service: string,
    envVar: string,
    promptFile: string)

  const MODELS: map<string, ModelProviderDetails> := map[
    "gemini-1.5-flash" := ModelProviderDetails(
      "fml.ai_providers.gemini_service",
      "GeminiService",
      "GEMINI_API_KEY",
      "prompts/gemini_system_prompt.txt")
  ]

  /** `MODELS.keys()` in insertion order. */
  const ModelNames: seq<string> := ["gemini-1.5-flash"]

  /** The ordered key list names the keys of the table, each once. */
  lemma ModelNamesAreTheKeys()
    ensures forall name :: name in MODELS <==> name in ModelNames
    ensures |ModelNames| == |MODELS.Keys|
  {
  }

  /** The table has the one Gemini entry, served by `GeminiService` with its
      key in `GEMINI_API_KEY`. */
  lemma ModelsTable()
    ensures MODELS.Keys == {"gemini-1.5-flash"}
    ensures MODELS["gemini-1.5-flash"].service == "GeminiService"
    ensures MODELS["gemini-1.5-flash"].envVar == "GEMINI_API_KEY"
  {
  }

  /** Every model of the table is one the Gemini service supports; the
      converse fails, since `gemini-1.5-pro` has no entry. */
  lemma TableModelsAreSupported()
    ensures forall name :: name in MODELS ==> name in Gemini.GetSupportedModels()
    ensures "gemini-1.5-pro" in Gemini.GetSupportedModels() && "gemini-1.5-pro" !in MODELS
  {
    Gemini.SupportedModelsAreTheEnum();
  }

  // ---------------------------------------------------------------------
  // The selector.

  /** What the service is constructed with: the API key, the prompt file of
      the descriptor and the model name. */
  datatype ServiceArgs = ServiceArgs(apiKey: string, systemInstructionPath: string, model: string)

  datatype Selection =
    | Unsupported(message: string)
    | MissingKey(message: string)
    | Ready(args: ServiceArgs)

  const SupportedIntro := "Supported models are: "

  function UnsupportedHead(name: string): string {
    "Unsupported model '" + name + "'. "
  }

  function UnsupportedMessage(name: string): string {
    UnsupportedHead(name) + SupportedIntro + Join(ModelNames, ", ")
  }

  function MissingKeyMessage(envVar: string, name: string): string {
    "API key environment variable '" + envVar + "' not set for model '" + name + "'."
  }

  /** The credential under `envVar`; an empty value counts as unset. */
  function Credential(env: map<string, string>, envVar: string): Option<string> {
    if envVar in env && env[envVar] != "" then Some(env[envVar]) else None
  }

  /** Look `name` up by exact key; without a credential fail before any
      service exists; otherwise hand over the key, the descriptor's prompt file
      and the name unchanged. */
  function SelectModel(name: string, env: map<string, string>): (r: Selection)
    ensures r.Unsupported? <==> name !in MODELS
    ensures r.MissingKey? <==> name in MODELS && Credential(env, MODELS[name].envVar).None?
    ensures r.Unsupported? ==> r.message == UnsupportedMessage(name)
    ensures r.MissingKey? ==> r.message == MissingKeyMessage(MODELS[name].envVar, name)
    ensures r.Ready? ==> && name in MODELS
                         && r.args.model == name
                         && r.args.apiKey != ""
                         && MODELS[name].envVar in env && env[MODELS[name].envVar] == r.args.apiKey
                         && r.args.systemInstructionPath == MODELS[name].promptFile
  {
    if name !in MODELS then Unsupported(UnsupportedMessage(name))
    else
      var details := MODELS[name];
      match Credential(env, details.envVar)
      case None => MissingKey(MissingKeyMessage(details.envVar, name))
      case Some(key) => Ready(ServiceArgs(key, details.promptFile, name))
  }

  /** The message refusing an unknown name quotes it and lists every known
      model. */
  lemma UnsupportedListsEveryModel(name: string, k: nat)
    requires k < |ModelNames|
    ensures var message := UnsupportedMessage(name);
            && UnsupportedHead(name) <= message
            && Contains(message, name)
            && Contains(message, SupportedIntro)
            && Contains(message, ModelNames[k])
  {
    var head := UnsupportedHead(name);
    var joined := Join(ModelNames, ", ");
    var message := UnsupportedMessage(name);
    ContainsSelf(name);
    ContainsInfix("Unsupported model '", name, "'. ", name);
    ContainsInfix("", head, SupportedIntro + joined, name);
    assert "" + head + (SupportedIntro + joined) == message;
    ContainsSelf(SupportedIntro);
    ContainsInfix(head, SupportedIntro, joined, SupportedIntro);
    JoinContainsParts(ModelNames, ", ", k);
    ContainsInfix(head + SupportedIntro, joined, "", ModelNames[k]);
    assert head + SupportedIntro + joined + "" == message;
  }

  /** A known name without its credential is refused with a message naming
      the variable and the model. */
  lemma MissingKeyNamesVariableAndModel(name: string, env: map<string, string>)
    requires name in MODELS && Credential(env, MODELS[name].envVar).None?
    ensures var r := SelectModel(name, env);
            var envVar := MODELS[name].envVar;
            && r.MissingKey?
            && Contains(r.message, envVar)
            && Contains(r.message, name)
  {
    var envVar := MODELS[name].envVar;
    var m := MissingKeyMessage(envVar, name);
    ContainsSelf(envVar);
    ContainsInfix("API key environment variable '", envVar, "' not set for model '" + name + "'.", envVar);
    assert "API key environment variable '" + envVar + ("' not set for model '" + name + "'.") == m;
    ContainsSelf(name);
    ContainsInfix("API key environment variable '" + envVar + "' not set for model '", name, "'.", name);
  }

  /** A selected model is one its service supports. */
  lemma SelectedModelIsSupported(name: string, env: map<string, string>)
    requires SelectModel(name, env).Ready?
    ensures SelectModel(name, env).args.model in Gemini.GetSupportedModels()
  {
    TableModelsAreSupported();
  }

  /** `_initialize_ai_service`: construct the service for a selected model, or
      report why not; on failure no service is constructed and the refusal
      keeps its kind (an unknown name, `ValueError`, or a missing key,
      `RuntimeError`). Every entry of `MODELS` names `GeminiService`, so the
      service is built directly rather than through its `provider` module and
      `service` class name. */
  method InitializeAiService(name: string, env: map<string, string>, readFile: string -> string)
    returns (service: Gemini.GeminiService?, refusal: Option<Selection>)
    ensures SelectModel(name, env).Ready? <==> service != null
    ensures refusal.None? <==> service != null
    ensures service != null ==>
              var args := SelectModel(name, env).args;
              && fresh(service)
              && service.apiKey == args.apiKey
              && service.modelName == name
              && service.systemInstruction == readFile(MODELS[name].promptFile)
              && service.sent == []
    ensures service == null ==> refusal == Some(SelectModel(name, env))
    ensures refusal.Some? ==> && (refusal.value.Unsupported? <==> name !in MODELS)
                              && (refusal.value.MissingKey? <==> name in MODELS)
  {
    var selection := SelectModel(name, env);
    match selection
    case Ready(args) =>
      service := new Gemini.GeminiService(args.apiKey, args.systemInstructionPath, args.model, readFile);
      refusal := None;
    case Unsupported(_) =>
      service, refusal := null, Some(selection);
    case MissingKey(_) =>
      service, refusal := null, Some(selection);
  }
}

=== FILE: schemas.dfy ===
/** The structured response contract (`Flag`, `AICommandResponse`) and the
    pydantic validation that enforces it on a parsed JSON document.

    Every field is required, strings are never coerced from other JSON
    values, `flags` must be a JSON array whose every element is a valid
    `Flag`, extra keys are ignored, and a failed validation reports every
    offending location (not just the first) as a (location, kind) pair, in
    field declaration order: `explanation`, `flags`, `command` at the top
    level and, within one flag, `flag` before `description`. */
module Schemas {
  import opened Wrappers
  import opened Strings
  import opened JsonValues

  datatype Flag = Flag(flag: string, description: string)

  datatype AICommandResponse = AICommandResponse(explanation: string, flags: seq<Flag>, command: string)

  /** One step of an error location: an object key or an array index. */
  datatype PathSegment = Key(name: string) | Index(i: nat)

  datatype ExpectedType = StringType | ListType | ModelType(model: string)

  datatype ErrorKind = Missing | WrongType(expected: ExpectedType)

  datatype FieldError = FieldError(loc: seq<PathSegment>, kind: ErrorKind)

  /** The outcome of validation: a value, or the errors that rejected the input. */
  datatype Validated<T> = Valid(value: T) | Invalid(errors: seq<FieldError>) {
    function Errors(): seq<FieldError> {
      if Valid? then [] else errors
    }
  }

  // ---------------------------------------------------------------------
  // Reference definition of a well-formed document, independent of how the
  // validator walks it.

  predicate HasString(fields: map<string, Json>, key: string) {
    key in fields && fields[key].JString?
  }

  predicate IsFlagJson(v: Json) {
    v.JObject? && HasString(v.fields, "flag") && HasString(v.fields, "description")
  }

  predicate IsResponseJson(v: Json) {
    && v.JObject?
    && HasString(v.fields, "explanation")
    && "flags" in v.fields && v.fields["flags"].JArray?
    && (forall i :: 0 <= i < |v.fields["flags"].items| ==> IsFlagJson(v.fields["flags"].items[i]))
    && HasString(v.fields, "command")
  }

  ghost function FlagOf(v: Json): Flag
    requires IsFlagJson(v)
  {
    Flag(v.fields["flag"].s, v.fields["description"].s)
  }

  /** The record a well-formed document denotes: its three fields, with the
      flags in array order. */
  ghost function ResponseOf(v: Json): AICommandResponse
    requires IsResponseJson(v)
  {
    var items := v.fields["flags"].items;
    AICommandResponse(
      v.fields["explanation"].s,
      seq(|items|, i requires 0 <= i < |items| && IsFlagJson(items[i]) => FlagOf(items[i])),
      v.fields["command"].s)
  }

  // ---------------------------------------------------------------------
  // The validator.

  /** A required `str` field: absent is `Missing`; present but not a JSON
      string (null, a number, a boolean, ...) is a type error, never coerced. */
  function ValidateString(v: Option<Json>, loc: seq<PathSegment>): (r: Validated<string>)
    ensures r.Valid? <==> v.Some? && v.value.JString?
    ensures r.Valid? ==> v.value == JString(r.value)
    ensures r.Invalid? ==> r.errors == [FieldError(loc, if v.None? then Missing else WrongType(StringType))]
  {
    match v
    case None => Invalid([FieldError(loc, Missing)])
    case Some(JString(s)) => Valid(s)
    case Some(_) => Invalid([FieldError(loc, WrongType(StringType))])
  }

  /** A `Flag` at location `loc`: a JSON object with string `flag` and
      `description`; both fields are checked and both errors are kept. */
  function ValidateFlag(v: Json, loc: seq<PathSegment>): (r: Validated<Flag>)
    ensures r.Valid? <==> IsFlagJson(v)
    ensures r.Valid? ==> r.value == FlagOf(v)
    ensures r.Invalid? ==> |r.errors| > 0
  {
    match v
    case JObject(m) =>
      var f := ValidateString(Lookup(m, "flag"), loc + [Key("flag")]);
      var d := ValidateString(Lookup(m, "description"), loc + [Key("description")]);
      if f.Valid? && d.Valid? then Valid(Flag(f.value, d.value))
      else Invalid(f.Errors() + d.Errors())
    case _ => Invalid([FieldError(loc, WrongType(ModelType("Flag")))])
  }

  /** The elements of the `flags` array, each validated at `flags.<index>`;
      errors of all elements are collected in index order. */
  function ValidateFlagItems(items: seq<Json>): (r: Validated<seq<Flag>>)
    ensures r.Valid? <==> forall i :: 0 <= i < |items| ==> IsFlagJson(items[i])
    ensures r.Valid? ==> |r.value| == |items| && forall i :: 0 <= i < |items| ==> r.value[i] == FlagOf(items[i])
    ensures r.Invalid? ==> |r.errors| > 0
    decreases |items|
  {
    if |items| == 0 then Valid([])
    else
      var n := |items| - 1;
      var init := ValidateFlagItems(items[..n]);
      var last := ValidateFlag(items[n], [Key("flags"), Index(n)]);
      if init.Valid? && last.Valid? then Valid(init.value + [last.value])
      else Invalid(init.Errors() + last.Errors())
  }

  /** The required `flags: List[Flag]` field. */
  function ValidateFlagList(v: Option<Json>): (r: Validated<seq<Flag>>)
    ensures r.Valid? <==> v.Some? && v.value.JArray? && forall i :: 0 <= i < |v.value.items| ==> IsFlagJson(v.value.items[i])
    ensures r.Valid? ==> && |r.value| == |v.value.items|
                         && forall i :: 0 <= i < |v.value.items| ==> r.value[i] == FlagOf(v.value.items[i])
    ensures r.Invalid? ==> |r.errors| > 0
  {
    match v
    case None => Invalid([FieldError([Key("flags")], Missing)])
    case Some(JArray(items)) => ValidateFlagItems(items)
    case Some(_) => Invalid([FieldError([Key("flags")], WrongType(ListType))])
  }

  /** `AICommandResponse.model_validate` on a parsed document: a record exactly
      when the document is well formed, and then the record it denotes;
      otherwise a non-empty list of errors. */
  function Validate(v: Json): (r: Validated<AICommandResponse>)
    ensures r.Valid? <==> IsResponseJson(v)
    ensures r.Valid? ==> r.value == ResponseOf(v)
    ensures r.Invalid? ==> |r.errors| > 0
  {
    match v
    case JObject(m) =>
      var e := ValidateString(Lookup(m, "explanation"), [Key("explanation")]);
      var f := ValidateFlagList(Lookup(m, "flags"));
      var c := ValidateString(Lookup(m, "command"), [Key("command")]);
      if e.Valid? && f.Valid? && c.Valid? then
        assert f.value == ResponseOf(v).flags;
        Valid(AICommandResponse(e.value, f.value, c.value))
      else Invalid(e.Errors() + f.Errors() + c.Errors())
    case _ => Invalid([FieldError([], WrongType(ModelType("AICommandResponse")))])
  }

  // ---------------------------------------------------------------------
  // Serialisation (`model_dump`), the other half of the round trip.

  function FlagToJson(f: Flag): Json {
    JObject(map["flag" := JString(f.flag), "description" := JString(f.description)])
  }

  function ToJson(r: AICommandResponse): Json {
    JObject(map[
      "explanation" := JString(r.explanation),
      "flags" := JArray(seq(|r.flags|, i requires 0 <= i < |r.flags| => FlagToJson(r.flags[i]))),
      "command" := JString(r.command)])
  }

  // ---------------------------------------------------------------------
  // The JSON schema of the models (`AICommandResponse.model_json_schema()`),
  // sent to the backend as the shape its reply must take.

  const FlagDescription := "The flag or option used in the command (e.g., '--verbose' or '-v')."
  const DescriptionDescription := "A brief definition of what the flag does."
  const ExplanationDescription := "A clear, concise explanation of the command's purpose, limited to 2-3 sentences."
  const FlagsDescription := "An array where each object represents a flag or option used in the command."
  const CommandDescription := "The full, complete command string that the user can copy and paste."

  function StringProperty(description: string, title: string): Json {
    JObject(map["description" := JString(description), "title" := JString(title), "type" := JString("string")])
  }

  function Names(names: seq<string>): Json {
    JArray(seq(|names|, i requires 0 <= i < |names| => JString(names[i])))
  }

  const FlagFields: seq<string> := ["flag", "description"]
  const ResponseFields: seq<string> := ["explanation", "flags", "command"]

  const FlagSchema: Json := JObject(map[
    "properties" := JObject(map[
      "flag" := StringProperty(FlagDescription, "Flag"),
      "description" := StringProperty(DescriptionDescription, "Description")]),
    "required" := Names(FlagFields),
    "title" := JString("Flag"),
    "type" := JString("object")])

  const ResponseSchema: Json := JObject(map[
    "$defs" := JObject(map["Flag" := FlagSchema]),
    "properties" := JObject(map[
      "explanation" := StringProperty(ExplanationDescription, "Explanation"),
      "flags" := JObject(map[
        "description" := JString(FlagsDescription),
        "items" := JObject(map["$ref" := JString("#/$defs/Flag")]),
        "title" := JString("Flags"),
        "type" := JString("array")]),
      "command" := StringProperty(CommandDescription, "Command")]),
    "required" := Names(ResponseFields),
    "title" := JString("AICommandResponse"),
    "type" := JString("object")])

  /** The names a schema object lists under `required`. */
  function RequiredNames(schema: Json): seq<string> {
    if schema.JObject? && "required" in schema.fields && schema.fields["required"].JArray? then
      var items := schema.fields["required"].items;
      seq(|items|, i requires 0 <= i < |items| => if items[i].JString? then items[i].s else "")
    else []
  }

  /** The schema sent to the backend and the validator agree on what is
      required: every name the schema lists is one whose absence the validator
      reports, and a document the validator accepts has them all. */
  lemma SchemaRequiredIsEnforced(v: Json, i: nat)
    requires v.JObject? && i < |RequiredNames(ResponseSchema)|
    ensures var name := RequiredNames(ResponseSchema)[i];
            && (name !in v.fields ==> FieldError([Key(name)], Missing) in Validate(v).errors)
            && (IsResponseJson(v) ==> name in v.fields)
  {
    assert ResponseSchema.fields["required"] == Names(ResponseFields);
    assert RequiredNames(ResponseSchema) == ResponseFields;
    var name := ResponseFields[i];
    if name !in v.fields {
      MissingFieldReported(v, name);
    }
  }

  /** Likewise for the elements of `flags` and the `Flag` definition. */
  lemma FlagSchemaRequiredIsEnforced(v: Json, k: nat, i: nat)
    requires v.JObject? && "flags" in v.fields && v.fields["flags"].JArray?
    requires k < |v.fields["flags"].items| && v.fields["flags"].items[k].JObject?
    requires i < |RequiredNames(FlagSchema)|
    ensures var name := RequiredNames(FlagSchema)[i];
            name !in v.fields["flags"].items[k].fields ==>
              FieldError([Key("flags"), Index(k), Key(name)], Missing) in Validate(v).errors
  {
    assert FlagSchema.fields["required"] == Names(FlagFields);
    assert RequiredNames(FlagSchema) == FlagFields;
    var name := FlagFields[i];
    if name !in v.fields["flags"].items[k].fields {
      FlagFieldReported(v, k, name);
    }
  }

  // ---------------------------------------------------------------------
  // Properties.

  /** Serialising a record and validating the result gives the record back,
      empty strings and an empty flag list included. */
  lemma RoundTrip(r: AICommandResponse)
    ensures Validate(ToJson(r)) == Valid(r)
  {
    var j := ToJson(r);
    var items := j.fields["flags"].items;
    assert forall i :: 0 <= i < |items| ==> items[i] == FlagToJson(r.flags[i]);
    assert IsResponseJson(j);
    assert ResponseOf(j).flags == r.flags;
  }

  /** A missing required field rejects the response, and the errors name it. */
  lemma MissingFieldReported(v: Json, key: string)
    requires v.JObject? && key in {"explanation", "flags", "command"} && key !in v.fields
    ensures Validate(v).Invalid?
    ensures FieldError([Key(key)], Missing) in Validate(v).errors
  {
  }

  /** A string field holding anything but a JSON string (null, a number, ...)
      rejects the response with a string-type error at that field. */
  lemma StringFieldNotCoerced(v: Json, key: string)
    requires v.JObject? && key in {"explanation", "command"} && key in v.fields && !v.fields[key].JString?
    ensures Validate(v).Invalid?
    ensures FieldError([Key(key)], WrongType(StringType)) in Validate(v).errors
  {
  }

  /** A `flags` value that is not an array is a list-type error at `flags`. */
  lemma FlagsNotListReported(v: Json)
    requires v.JObject? && "flags" in v.fields && !v.fields["flags"].JArray?
    ensures Validate(v).Invalid?
    ensures FieldError([Key("flags")], WrongType(ListType)) in Validate(v).errors
  {
  }

  /** The errors of each element reach the list's errors, whatever the other
      elements hold: validation of the list does not stop at the first bad one. */
  lemma {:induction false} ItemErrorsCollected(items: seq<Json>, k: nat, e: FieldError)
    requires k < |items|
    requires e in ValidateFlag(items[k], [Key("flags"), Index(k)]).Errors()
    ensures e in ValidateFlagItems(items).Errors()
    decreases |items|, 1
  {
    if k == |items| - 1 {
      FlagItemsErrorsStep(items);
    } else {
      EarlierItemErrorsCollected(items, k, e);
    }
  }

  /** The case of `ItemErrorsCollected` for an element before the last one. */
  lemma {:induction false} EarlierItemErrorsCollected(items: seq<Json>, k: nat, e: FieldError)
    requires k < |items| - 1
    requires e in ValidateFlag(items[k], [Key("flags"), Index(k)]).Errors()
    ensures e in ValidateFlagItems(items).Errors()
    decreases |items|, 0
  {
    var prefix := items[..|items| - 1];
    assert prefix[k] == items[k];
    ItemErrorsCollected(prefix, k, e);
    FlagItemsErrorsStep(items);
  }

  /** The errors of a list are those of all but its last element, then those
      of the last one. */
  lemma FlagItemsErrorsStep(items: seq<Json>)
    requires |items| > 0
    ensures ValidateFlagItems(items).Errors()
         == ValidateFlagItems(items[..|items| - 1]).Errors()
          + ValidateFlag(items[|items| - 1], [Key("flags"), Index(|items| - 1)]).Errors()
  {
  }

  /** The errors each element of `flags` gets on its own, by index. */
  function ItemErrors(items: seq<Json>): (r: seq<seq<FieldError>>)
    ensures |r| == |items|
  {
    seq(|items|, i requires 0 <= i < |items| => ValidateFlag(items[i], [Key("flags"), Index(i)]).Errors())
  }

  lemma ItemErrorsOfPrefix(items: seq<Json>)
    requires |items| > 0
    ensures ItemErrors(items)[..|items| - 1] == ItemErrors(items[..|items| - 1])
  {
    var n := |items| - 1;
    var a, b := ItemErrors(items)[..n], ItemErrors(items[..n]);
    forall i | 0 <= i < n ensures a[i] == b[i] {
      assert items[..n][i] == items[i];
    }
  }

  /** The errors of the list are exactly the errors of its elements, each
      validated on its own, one element after another in index order. */
  lemma {:induction false} FlagItemsErrorsInOrder(items: seq<Json>)
    ensures ValidateFlagItems(items).Errors() == Concat(ItemErrors(items))
    decreases |items|
  {
    if |items| > 0 {
      var n := |items| - 1;
      FlagItemsErrorsInOrder(items[..n]);
      InOrderStep(items);
    }
  }

  /** The inductive step of `FlagItemsErrorsInOrder`: adding the last element. */
  lemma InOrderStep(items: seq<Json>)
    requires |items| > 0
    requires ValidateFlagItems(items[..|items| - 1]).Errors() == Concat(ItemErrors(items[..|items| - 1]))
    ensures ValidateFlagItems(items).Errors() == Concat(ItemErrors(items))
  {
    var n := |items| - 1;
    var parts := ItemErrors(items);
    ItemErrorsOfPrefix(items);
    ConcatSnoc(parts);
    FlagItemsErrorsStep(items);
  }

  /** The errors of the `flags` field reach the response's errors, whatever
      the other two fields hold. */
  lemma FlagsErrorsCollected(v: Json, e: FieldError)
    requires v.JObject?
    requires e in ValidateFlagList(Lookup(v.fields, "flags")).Errors()
    ensures Validate(v).Invalid? && e in Validate(v).errors
  {
  }

  /** Within a flag element, a missing `flag` or `description` is reported as
      missing at `flags.<k>.<key>`, and a non-string one as a string-type error
      there. */
  lemma FlagFieldReported(v: Json, k: nat, key: string)
    requires v.JObject? && "flags" in v.fields && v.fields["flags"].JArray?
    requires k < |v.fields["flags"].items| && v.fields["flags"].items[k].JObject?
    requires key in {"flag", "description"}
    requires !HasString(v.fields["flags"].items[k].fields, key)
    ensures Validate(v).Invalid?
    ensures var m := v.fields["flags"].items[k].fields;
            FieldError([Key("flags"), Index(k), Key(key)], if key in m then WrongType(StringType) else Missing)
              in Validate(v).errors
  {
    var items := v.fields["flags"].items;
    var m := items[k].fields;
    var loc := [Key("flags"), Index(k)];
    assert loc + [Key(key)] == [Key("flags"), Index(k), Key(key)];
    var e := FieldError(loc + [Key(key)], if key in m then WrongType(StringType) else Missing);
    assert e in ValidateFlag(items[k], loc).Errors() by {
      var f := ValidateString(Lookup(m, "flag"), loc + [Key("flag")]);
      var d := ValidateString(Lookup(m, "description"), loc + [Key("description")]);
      assert ValidateFlag(items[k], loc) == Invalid(f.Errors() + d.Errors());
      if key == "flag" {
        assert e in f.Errors();
      } else {
        assert e in d.Errors();
      }
    }
    ItemErrorsCollected(items, k, e);
    FlagsErrorsCollected(v, e);
  }

  /** An element that is not a JSON object is a type error at `flags.<k>`. */
  lemma NonObjectFlagReported(v: Json, k: nat)
    requires v.JObject? && "flags" in v.fields && v.fields["flags"].JArray?
    requires k < |v.fields["flags"].items| && !v.fields["flags"].items[k].JObject?
    ensures Validate(v).Invalid?
    ensures FieldError([Key("flags"), Index(k)], WrongType(ModelType("Flag"))) in Validate(v).errors
  {
    var items := v.fields["flags"].items;
    var e := FieldError([Key("flags"), Index(k)], WrongType(ModelType("Flag")));
    ItemErrorsCollected(items, k, e);
    FlagsErrorsCollected(v, e);
  }

  /** An element with neither key rejects the whole response, and both of its
      missing fields are reported. */
  lemma ItemLackingBothKeys(v: Json, k: nat)
    requires v.JObject? && "flags" in v.fields && v.fields["flags"].JArray?
    requires k < |v.fields["flags"].items| && v.fields["flags"].items[k].JObject?
    requires "flag" !in v.fields["flags"].items[k].fields
    requires "description" !in v.fields["flags"].items[k].fields
    ensures Validate(v).Invalid?
    ensures FieldError([Key("flags"), Index(k), Key("flag")], Missing) in Validate(v).errors
    ensures FieldError([Key("flags"), Index(k), Key("description")], Missing) in Validate(v).errors
  {
    FlagFieldReported(v, k, "flag");
    FlagFieldReported(v, k, "description");
  }

  /** Keys other than the three fields play no part: adding one changes nothing. */
  lemma ExtraKeysIgnored(fields: map<string, Json>, key: string, x: Json)
    requires key !in {"explanation", "flags", "command"}
    ensures Validate(JObject(fields[key := x])) == Validate(JObject(fields))
  {
    var m := fields[key := x];
    assert Lookup(m, "explanation") == Lookup(fields, "explanation");
    assert Lookup(m, "flags") == Lookup(fields, "flags");
    assert Lookup(m, "command") == Lookup(fields, "command");
  }

  /** Errors of the element at `flags.<k>` lie under that location. */
  lemma FlagErrorsUnder(x: Json, k: nat, e: FieldError)
    requires e in ValidateFlag(x, [Key("flags"), Index(k)]).Errors()
    ensures |e.loc| >= 2 && e.loc[0] == Key("flags") && e.loc[1] == Index(k)
  {
  }

  /** Errors of the flag list lie under `flags.<index>` for an index of the
      list, and are errors of the element at that index. */
  lemma {:induction false} FlagItemsErrorsUnder(items: seq<Json>, e: FieldError)
    requires e in ValidateFlagItems(items).Errors()
    ensures |e.loc| >= 2 && e.loc[0] == Key("flags") && e.loc[1].Index? && e.loc[1].i < |items|
    ensures e in ValidateFlag(items[e.loc[1].i], [Key("flags"), e.loc[1]]).Errors()
    decreases |items|, 1
  {
    FlagItemsErrorsSplit(items, e);
    if e in ValidateFlag(items[|items| - 1], [Key("flags"), Index(|items| - 1)]).Errors() {
      LastErrorsUnder(items, e);
    } else {
      PrefixErrorsUnder(items, e);
    }
  }

  /** An error of the flag list is one of all but the last element, or one of
      the last element. */
  lemma FlagItemsErrorsSplit(items: seq<Json>, e: FieldError)
    requires e in ValidateFlagItems(items).Errors()
    ensures |items| > 0
    ensures || e in ValidateFlagItems(items[..|items| - 1]).Errors()
            || e in ValidateFlag(items[|items| - 1], [Key("flags"), Index(|items| - 1)]).Errors()
  {
    if |items| > 0 {
      FlagItemsErrorsStep(items);
    }
  }

  /** The case of `FlagItemsErrorsUnder` for an error of the list's last element. */
  lemma LastErrorsUnder(items: seq<Json>, e: FieldError)
    requires |items| > 0
    requires e in ValidateFlag(items[|items| - 1], [Key("flags"), Index(|items| - 1)]).Errors()
    ensures |e.loc| >= 2 && e.loc[0] == Key("flags") && e.loc[1].Index? && e.loc[1].i < |items|
    ensures e in ValidateFlag(items[e.loc[1].i], [Key("flags"), e.loc[1]]).Errors()
  {
    FlagErrorsUnder(items[|items| - 1], |items| - 1, e);
    assert e.loc[1] == Index(|items| - 1);
  }

  /** The location half of `FlagItemsErrorsUnder`: an error of the flag list
      lies under `flags.<index>` for an index of the list. */
  lemma FlagItemsErrorsIndexed(items: seq<Json>, e: FieldError)
    requires e in ValidateFlagItems(items).Errors()
    ensures |e.loc| >= 2 && e.loc[0] == Key("flags") && e.loc[1].Index? && e.loc[1].i < |items|
  {
    FlagItemsErrorsUnder(items, e);
  }

  /** The case of `FlagItemsErrorsUnder` for an error of the list's prefix. */
  lemma {:induction false} PrefixErrorsUnder(items: seq<Json>, e: FieldError)
    requires |items| > 0
    requires e in ValidateFlagItems(items[..|items| - 1]).Errors()
    ensures |e.loc| >= 2 && e.loc[0] == Key("flags") && e.loc[1].Index? && e.loc[1].i < |items|
    ensures e in ValidateFlag(items[e.loc[1].i], [Key("flags"), e.loc[1]]).Errors()
    decreases |items|, 0
  {
    var prefix := items[..|items| - 1];
    FlagItemsErrorsUnder(prefix, e);
    assert prefix[e.loc[1].i] == items[e.loc[1].i];
  }

  /** Every error is located under one of the three fields, or at the root
      when the document is not an object at all. */
  lemma ErrorsLocated(v: Json, e: FieldError)
    requires e in Validate(v).Errors()
    ensures e.loc == [] <==> !v.JObject?
    ensures v.JObject? ==> e.loc[0] in {Key("explanation"), Key("flags"), Key("command")}
  {
    if v.JObject? {
      var m := v.fields;
      var ex := ValidateString(Lookup(m, "explanation"), [Key("explanation")]);
      var f := ValidateFlagList(Lookup(m, "flags"));
      var c := ValidateString(Lookup(m, "command"), [Key("command")]);
      assert e in ex.Errors() || e in f.Errors() || e in c.Errors();
      if e in f.Errors() && Lookup(m, "flags").Some? && Lookup(m, "flags").value.JArray? {
        FlagItemsErrorsUnder(Lookup(m, "flags").value.items, e);
      }
    }
  }

  // ---------------------------------------------------------------------
  // Soundness: every reported error points at a real defect of the document.

  /** The value found by following `loc` from `v`, if the path exists. */
  ghost function At(v: Json, loc: seq<PathSegment>): Option<Json>
    decreases |loc|
  {
    if |loc| == 0 then Some(v)
    else match loc[0]
      case Key(k) => if v.JObject? && k in v.fields then At(v.fields[k], loc[1..]) else None
      case Index(i) => if v.JArray? && i < |v.items| then At(v.items[i], loc[1..]) else None
  }

  /** The document `root` really has the defect `e` names: a `Missing` key is
      absent from the object its location leads to, and a type error sits on a
      value of another JSON type. */
  ghost predicate Defective(root: Json, e: FieldError) {
    match e.kind
    case Missing =>
      && |e.loc| > 0 && e.loc[|e.loc| - 1].Key?
      && var parent := At(root, e.loc[..|e.loc| - 1]);
         parent.Some? && parent.value.JObject? && e.loc[|e.loc| - 1].name !in parent.value.fields
    case WrongType(StringType) => At(root, e.loc).Some? && !At(root, e.loc).value.JString?
    case WrongType(ListType) => At(root, e.loc).Some? && !At(root, e.loc).value.JArray?
    case WrongType(ModelType(_)) => At(root, e.loc).Some? && !At(root, e.loc).value.JObject?
  }

  lemma {:induction false} AtAppend(root: Json, base: seq<PathSegment>, rel: seq<PathSegment>)
    requires At(root, base).Some?
    ensures At(root, base + rel) == At(At(root, base).value, rel)
    decreases |base|
  {
    if |base| > 0 {
      assert (base + rel)[0] == base[0];
      assert (base + rel)[1..] == base[1..] + rel;
      match base[0]
      case Key(k) => AtAppend(root.fields[k], base[1..], rel);
      case Index(i) => AtAppend(root.items[i], base[1..], rel);
    } else {
      assert base + rel == rel;
    }
  }

  /** A defect of a value found at `base` is a defect of the whole document,
      at `base` followed by its own location. */
  lemma DefectUnder(root: Json, base: seq<PathSegment>, rel: seq<PathSegment>, kind: ErrorKind)
    requires At(root, base).Some? && Defective(At(root, base).value, FieldError(rel, kind))
    ensures Defective(root, FieldError(base + rel, kind))
  {
    if kind.Missing? {
      var loc := base + rel;
      assert loc[..|loc| - 1] == base + rel[..|rel| - 1];
      assert loc[|loc| - 1] == rel[|rel| - 1];
      AtAppend(root, base, rel[..|rel| - 1]);
    } else {
      AtAppend(root, base, rel);
    }
  }

  /** Every error of a string field at `[Key(key)]` of an object is a defect there. */
  lemma StringErrorSound(m: map<string, Json>, key: string, e: FieldError)
    requires e in ValidateString(Lookup(m, key), [Key(key)]).Errors()
    ensures Defective(JObject(m), e)
  {
    assert e.loc == [Key(key)] && e.loc[..0] == [];
    assert e.loc[1..] == [];
  }

  /** Every error of element `k`, taken relative to the element, is a defect of it. */
  lemma FlagErrorSound(x: Json, k: nat, e: FieldError)
    requires e in ValidateFlag(x, [Key("flags"), Index(k)]).Errors()
    ensures |e.loc| >= 2 && Defective(x, FieldError(e.loc[2..], e.kind))
  {
    var base := [Key("flags"), Index(k)];
    if x.JObject? {
      var m := x.fields;
      var f := ValidateString(Lookup(m, "flag"), base + [Key("flag")]);
      var d := ValidateString(Lookup(m, "description"), base + [Key("description")]);
      assert e in f.Errors() || e in d.Errors();
      var key := if e in f.Errors() then "flag" else "description";
      assert e.loc == base + [Key(key)];
      StringErrorSound(m, key, FieldError([Key(key)], e.kind));
    }
  }

  /** `flags.<i>` leads to element `i` of the `flags` array. */
  lemma AtFlagItem(v: Json, i: nat)
    requires v.JObject? && "flags" in v.fields && v.fields["flags"].JArray?
    requires i < |v.fields["flags"].items|
    ensures At(v, [Key("flags"), Index(i)]) == Some(v.fields["flags"].items[i])
  {
    var flags := v.fields["flags"];
    var base := [Key("flags"), Index(i)];
    assert base[1..] == [Index(i)] && base[1..][1..] == [];
    assert At(flags.items[i], []) == Some(flags.items[i]);
    assert At(flags, [Index(i)]) == At(flags.items[i], []);
    assert At(v, base) == At(flags, [Index(i)]);
  }

  /** Every error of the list of flags is a defect of the document. */
  lemma FlagItemErrorSound(v: Json, e: FieldError)
    requires v.JObject? && "flags" in v.fields && v.fields["flags"].JArray?
    requires e in ValidateFlagItems(v.fields["flags"].items).Errors()
    ensures Defective(v, e)
  {
    var items := v.fields["flags"].items;
    FlagItemsErrorsUnder(items, e);
    var i := e.loc[1].i;
    var base := [Key("flags"), Index(i)];
    FlagErrorSound(items[i], i, e);
    FlagErrorsUnder(items[i], i, e);
    assert e.loc == base + e.loc[2..];
    AtFlagItem(v, i);
    DefectUnder(v, base, e.loc[2..], e.kind);
  }

  /** Validation reports only real defects: a field it calls missing is absent
      from its object, and a value it calls of the wrong type is of another
      JSON type. Together with the lemmas that report each defect, the errors
      name the offending locations and nothing else. */
  lemma ErrorsAreSound(v: Json, e: FieldError)
    requires e in Validate(v).Errors()
    ensures Defective(v, e)
  {
    if v.JObject? {
      var m := v.fields;
      var ex := ValidateString(Lookup(m, "explanation"), [Key("explanation")]);
      var f := ValidateFlagList(Lookup(m, "flags"));
      var c := ValidateString(Lookup(m, "command"), [Key("command")]);
      assert e in ex.Errors() || e in f.Errors() || e in c.Errors();
      if e in ex.Errors() {
        StringErrorSound(m, "explanation", e);
      } else if e in c.Errors() {
        StringErrorSound(m, "command", e);
      } else if Lookup(m, "flags").Some? && Lookup(m, "flags").value.JArray? {
        FlagItemErrorSound(v, e);
      } else {
        assert e.loc == [Key("flags")] && e.loc[..0] == [] && e.loc[1..] == [];
      }
    }
  }

  // ---------------------------------------------------------------------
  // Each defect is reported once, in field declaration order.

  /** No two errors share a location. */
  predicate DistinctLocs(errs: seq<FieldError>) {
    forall i, j :: 0 <= i < j < |errs| ==> errs[i].loc != errs[j].loc
  }

  lemma DistinctLocsConcat(a: seq<FieldError>, b: seq<FieldError>)
    requires DistinctLocs(a) && DistinctLocs(b)
    requires forall x, y :: x in a && y in b ==> x.loc != y.loc
    ensures DistinctLocs(a + b)
  {
    var ab := a + b;
    forall i, j | 0 <= i < j < |ab| ensures ab[i].loc != ab[j].loc {
      if j < |a| {
        assert ab[i] == a[i] && ab[j] == a[j];
      } else if i >= |a| {
        assert ab[i] == b[i - |a|] && ab[j] == b[j - |a|];
      } else {
        assert ab[i] in a && ab[j] in b;
      }
    }
  }

  /** One element has at most two errors, and when it has two they are those
      of `flag` and then of `description`, in declaration order. */
  lemma FlagErrorsInFieldOrder(x: Json, k: nat)
    ensures var errs := ValidateFlag(x, [Key("flags"), Index(k)]).Errors();
            && |errs| <= 2
            && (|errs| == 2 ==> && errs[0].loc == [Key("flags"), Index(k), Key("flag")]
                                && errs[1].loc == [Key("flags"), Index(k), Key("description")])
  {
    var base := [Key("flags"), Index(k)];
    if x.JObject? {
      var m := x.fields;
      var f := ValidateString(Lookup(m, "flag"), base + [Key("flag")]);
      var d := ValidateString(Lookup(m, "description"), base + [Key("description")]);
      assert base + [Key("flag")] == [Key("flags"), Index(k), Key("flag")];
      assert base + [Key("description")] == [Key("flags"), Index(k), Key("description")];
      if f.Invalid? && d.Invalid? {
        assert ValidateFlag(x, base).Errors() == f.errors + d.errors;
      }
    }
  }

  /** The errors of one element have distinct locations. */
  lemma FlagErrorsDistinct(x: Json, k: nat)
    ensures DistinctLocs(ValidateFlag(x, [Key("flags"), Index(k)]).Errors())
  {
    var base := [Key("flags"), Index(k)];
    if x.JObject? {
      var m := x.fields;
      var f := ValidateString(Lookup(m, "flag"), base + [Key("flag")]);
      var d := ValidateString(Lookup(m, "description"), base + [Key("description")]);
      assert (base + [Key("flag")])[2] != (base + [Key("description")])[2];
      DistinctLocsConcat(f.Errors(), d.Errors());
    }
  }

  /** An error of all but the last element and one of the last element
      differ in their index. */
  lemma PrefixAndLastApart(items: seq<Json>, x: FieldError, y: FieldError)
    requires |items| > 0
    requires x in ValidateFlagItems(items[..|items| - 1]).Errors()
    requires y in ValidateFlag(items[|items| - 1], [Key("flags"), Index(|items| - 1)]).Errors()
    ensures x.loc != y.loc
  {
    var n := |items| - 1;
    FlagItemsErrorsIndexed(items[..n], x);
    FlagErrorsUnder(items[n], n, y);
    assert x.loc[1] != y.loc[1];
  }

  /** The errors of the flag list have distinct locations: each element's are
      distinct, and those of different elements differ in their index. */
  lemma {:induction false} FlagItemsErrorsDistinct(items: seq<Json>)
    ensures DistinctLocs(ValidateFlagItems(items).Errors())
    decreases |items|
  {
    if |items| > 0 {
      FlagItemsErrorsDistinct(items[..|items| - 1]);
      DistinctStep(items);
    }
  }

  /** The inductive step of `FlagItemsErrorsDistinct`: adding the last
      element. */
  lemma DistinctStep(items: seq<Json>)
    requires |items| > 0
    requires DistinctLocs(ValidateFlagItems(items[..|items| - 1]).Errors())
    ensures DistinctLocs(ValidateFlagItems(items).Errors())
  {
    var n := |items| - 1;
    var prefix := ValidateFlagItems(items[..n]).Errors();
    var last := ValidateFlag(items[n], [Key("flags"), Index(n)]).Errors();
    FlagErrorsDistinct(items[n], n);
    forall x, y | x in prefix && y in last ensures x.loc != y.loc {
      PrefixAndLastApart(items, x, y);
    }
    DistinctLocsConcat(prefix, last);
    FlagItemsErrorsStep(items);
  }

  /** Each location is reported at most once. */
  lemma ErrorsDistinct(v: Json)
    ensures DistinctLocs(Validate(v).Errors())
  {
    if v.JObject? {
      var m := v.fields;
      var ex := ValidateString(Lookup(m, "explanation"), [Key("explanation")]).Errors();
      var f := ValidateFlagList(Lookup(m, "flags")).Errors();
      var c := ValidateString(Lookup(m, "command"), [Key("command")]).Errors();
      StringErrorsRank(m, "explanation", 0);
      StringErrorsRank(m, "command", 2);
      FlagListErrorsUnder(v);
      assert forall e :: e in f ==> FieldRank(e) == 1;
      FlagListErrorsDistinct(Lookup(m, "flags"));
      RanksApart(ex, f);
      DistinctLocsConcat(ex, f);
      RanksApart(ex + f, c);
      DistinctLocsConcat(ex + f, c);
      assert Validate(v).Errors() == ex + f + c;
    }
  }

  /** The errors of the `flags` field have distinct locations. */
  lemma FlagListErrorsDistinct(flags: Option<Json>)
    ensures DistinctLocs(ValidateFlagList(flags).Errors())
  {
    if flags.Some? && flags.value.JArray? {
      FlagItemsErrorsDistinct(flags.value.items);
    }
  }

  /** Errors of different fields have different locations. */
  lemma RanksApart(a: seq<FieldError>, b: seq<FieldError>)
    requires forall x, y :: x in a && y in b ==> FieldRank(x) < FieldRank(y)
    ensures forall x, y :: x in a && y in b ==> x.loc != y.loc
  {
  }

  /** The top-level field an error belongs to, by declaration position:
      `explanation` 0, `flags` 1, `command` 2. */
  function FieldRank(e: FieldError): nat {
    if |e.loc| > 0 && e.loc[0] == Key("flags") then 1
    else if |e.loc| > 0 && e.loc[0] == Key("command") then 2
    else 0
  }

  /** Every error of the `flags` field lies under `flags`. */
  lemma FlagListErrorsUnder(v: Json)
    requires v.JObject?
    ensures forall e :: e in ValidateFlagList(Lookup(v.fields, "flags")).Errors() ==>
              |e.loc| > 0 && e.loc[0] == Key("flags")
  {
    var flags := Lookup(v.fields, "flags");
    forall e | e in ValidateFlagList(flags).Errors() ensures |e.loc| > 0 && e.loc[0] == Key("flags") {
      if flags.Some? && flags.value.JArray? {
        FlagItemsErrorsIndexed(flags.value.items, e);
      }
    }
  }

  predicate RankOrdered(errs: seq<FieldError>) {
    forall i, j :: 0 <= i < j < |errs| ==> FieldRank(errs[i]) <= FieldRank(errs[j])
  }

  /** Errors all of one rank are ordered. */
  lemma OneRankOrdered(errs: seq<FieldError>, r: nat)
    requires forall e :: e in errs ==> FieldRank(e) == r
    ensures RankOrdered(errs)
  {
    forall i, j | 0 <= i < j < |errs| ensures FieldRank(errs[i]) <= FieldRank(errs[j]) {
      assert errs[i] in errs && errs[j] in errs;
    }
  }

  lemma RankOrderedConcat(a: seq<FieldError>, b: seq<FieldError>, r: nat)
    requires RankOrdered(a) && RankOrdered(b)
    requires forall e :: e in a ==> FieldRank(e) <= r
    requires forall e :: e in b ==> r <= FieldRank(e)
    ensures RankOrdered(a + b)
  {
    var ab := a + b;
    forall i, j | 0 <= i < j < |ab| ensures FieldRank(ab[i]) <= FieldRank(ab[j]) {
      if j < |a| {
        assert ab[i] == a[i] && ab[j] == a[j];
      } else if i >= |a| {
        assert ab[i] == b[i - |a|] && ab[j] == b[j - |a|];
      } else {
        assert ab[i] in a && ab[j] in b;
      }
    }
  }

  /** The errors of a top-level string field all sit at that field. */
  lemma StringErrorsRank(m: map<string, Json>, key: string, r: nat)
    requires (key == "explanation" && r == 0) || (key == "command" && r == 2)
    ensures forall e :: e in ValidateString(Lookup(m, key), [Key(key)]).Errors() ==> FieldRank(e) == r
  {
  }

  /** Errors come field by field in declaration order: those of `explanation`,
      then those of `flags`, then those of `command`. */
  lemma ErrorsInFieldOrder(v: Json)
    ensures RankOrdered(Validate(v).Errors())
  {
    if v.JObject? {
      var m := v.fields;
      var ex := ValidateString(Lookup(m, "explanation"), [Key("explanation")]).Errors();
      var f := ValidateFlagList(Lookup(m, "flags")).Errors();
      var c := ValidateString(Lookup(m, "command"), [Key("command")]).Errors();
      StringErrorsRank(m, "explanation", 0);
      StringErrorsRank(m, "command", 2);
      FlagListErrorsUnder(v);
      assert forall e :: e in f ==> FieldRank(e) == 1;
      OneRankOrdered(ex, 0);
      OneRankOrdered(f, 1);
      OneRankOrdered(c, 2);
      RankOrderedConcat(ex, f, 1);
      RankOrderedConcat(ex + f, c, 2);
      assert Validate(v).Errors() == ex + f + c;
    }
  }

  // ---------------------------------------------------------------------
  // The text of a `ValidationError`: a header counting the errors, then each
  // error's dotted location and message.

  function KindMessage(k: ErrorKind): string {
    match k
    case Missing => "Field required"
    case WrongType(StringType) => "Input should be a valid string"
    case WrongType(ListType) => "Input should be a valid list"
    case WrongType(ModelType(name)) => "Input should be a valid dictionary or instance of " + name
  }

  function SegmentText(s: PathSegment): string {
    match s
    case Key(name) => name
    case Index(i) => NatToString(i)
  }

  function LocText(loc: seq<PathSegment>): string
    decreases |loc|
  {
    if |loc| == 0 then ""
    else if |loc| == 1 then SegmentText(loc[0])
    else SegmentText(loc[0]) + "." + LocText(loc[1..])
  }

  function ErrorText(e: FieldError): string {
    (if e.loc == [] then "" else "\n" + LocText(e.loc)) + "\n  " + KindMessage(e.kind)
  }

  function ErrorsText(errs: seq<FieldError>): string {
    Concat(seq(|errs|, i requires 0 <= i < |errs| => ErrorText(errs[i])))
  }

  const SingularHeader := " validation error for AICommandResponse"
  const PluralHeader := " validation errors for AICommandResponse"

  function ValidationErrorText(errs: seq<FieldError>): string {
    NatToString(|errs|) + (if |errs| == 1 then SingularHeader else PluralHeader) + ErrorsText(errs)
  }

  /** The header of a single error counts it in the singular. */
  lemma OneErrorHeader(errs: seq<FieldError>)
    requires |errs| == 1
    ensures ValidationErrorText(errs) == "1" + SingularHeader + ErrorsText(errs)
  {
    assert NatToString(1) == "1";
  }

  /** One error's text holds its location and its message. */
  lemma ErrorTextHasParts(e: FieldError)
    ensures Contains(ErrorText(e), LocText(e.loc))
    ensures Contains(ErrorText(e), KindMessage(e.kind))
  {
    var pre := if e.loc == [] then "" else "\n";
    var loc := LocText(e.loc);
    var msg := KindMessage(e.kind);
    assert ErrorText(e) == pre + loc + ("\n  " + msg);
    ContainsSelf(loc);
    ContainsInfix(pre, loc, "\n  " + msg, loc);
    assert ErrorText(e) == (pre + loc + "\n  ") + msg + "";
    ContainsSelf(msg);
    ContainsInfix(pre + loc + "\n  ", msg, "", msg);
  }

  /** The text of a validation error names every error: its location and
      its message. */
  lemma ErrorTextNamesEachError(errs: seq<FieldError>, k: nat)
    requires k < |errs|
    ensures Contains(ValidationErrorText(errs), LocText(errs[k].loc))
    ensures Contains(ValidationErrorText(errs), KindMessage(errs[k].kind))
  {
    var e := errs[k];
    ErrorTextHasParts(e);
    var texts := seq(|errs|, i requires 0 <= i < |errs| => ErrorText(errs[i]));
    ConcatContainsPart(texts, k, LocText(e.loc));
    ConcatContainsPart(texts, k, KindMessage(e.kind));
    var header := NatToString(|errs|) + (if |errs| == 1 then SingularHeader else PluralHeader);
    assert ValidationErrorText(errs) == header + Concat(texts) + "";
    ContainsInfix(header, Concat(texts), "", LocText(e.loc));
    ContainsInfix(header, Concat(texts), "", KindMessage(e.kind));
  }
}

=== FILE: strings.dfy ===
/** The few string operations of Python's `str` and `os.path` that the core
    relies on: substring test, lower-casing, POSIX basename, join, and the
    decimal rendering of a natural number. */
module Strings {

  /** `sub` occurs in `s` starting at index `i`. */
  ghost predicate OccursAt(sub: string, s: string, i: int) {
    0 <= i && i + |sub| <= |s| && s[i..i + |sub|] == sub
  }

  /** Python's `sub in s`. */
  function Contains(s: string, sub: string): bool
    decreases |s|
  {
    if |sub| > |s| then false
    else if s[..|sub|] == sub then true
    else Contains(s[1..], sub)
  }

  /** `Contains` finds an occurrence exactly when there is one. */
  lemma {:induction false} ContainsSpec(s: string, sub: string)
    ensures Contains(s, sub) <==> exists i :: OccursAt(sub, s, i)
    decreases |s|
  {
    if |sub| > |s| {
    } else if s[..|sub|] == sub {
      assert OccursAt(sub, s, 0);
    } else {
      ContainsSpec(s[1..], sub);
      if i :| OccursAt(sub, s, i) {
        assert i != 0;
        SliceOfTail(s, i - 1, |sub|);
        assert OccursAt(sub, s[1..], i - 1);
      }
      if i :| OccursAt(sub, s[1..], i) {
        SliceOfTail(s, i, |sub|);
        assert OccursAt(sub, s, i + 1);
      }
    }
  }

  /** A slice of the tail is the slice of the whole shifted by one. */
  lemma SliceOfTail(s: string, i: nat, n: nat)
    requires |s| > 0 && i + n <= |s| - 1
    ensures s[1..][i..i + n] == s[i + 1..i + 1 + n]
  {
    var a, b := s[1..][i..i + n], s[i + 1..i + 1 + n];
    forall j | 0 <= j < n ensures a[j] == b[j] {
      assert a[j] == s[i + 1 + j];
    }
  }

  /** Whatever occurs in `t` occurs in any string that has `t` as an infix. */
  lemma ContainsInfix(a: string, t: string, c: string, sub: string)
    requires Contains(t, sub)
    ensures Contains(a + t + c, sub)
  {
    ContainsSpec(t, sub);
    var i :| OccursAt(sub, t, i);
    assert (a + t + c)[|a| + i..|a| + i + |sub|] == t[i..i + |sub|];
    assert OccursAt(sub, a + t + c, |a| + i);
    ContainsSpec(a + t + c, sub);
  }

  /** `p + a` is a prefix of `p` followed by `a` and then anything. */
  lemma PrefixOfConcat<T>(p: seq<T>, a: seq<T>, b: seq<T>)
    ensures p + a <= p + (a + b)
  {
    assert (p + (a + b))[..|p + a|] == p + a;
  }

  /** A string occurs in itself. */
  lemma ContainsSelf(s: string)
    ensures Contains(s, s)
  {
    assert s[..|s|] == s;
  }

  /** ASCII lower-casing of one character (`str.lower` on ASCII text). */
  function LowerChar(c: char): char {
    if 'A' <= c <= 'Z' then (c as int + 32) as char else c
  }

  function ToLower(s: string): string {
    seq(|s|, i requires 0 <= i < |s| => LowerChar(s[i]))
  }

  /** Two characters are equal, or are the same ASCII letter in upper and
      lower case. */
  predicate SameCharUpToCase(a: char, b: char) {
    || a == b
    || ('A' <= a <= 'Z' && b as int == a as int + 32)
    || ('A' <= b <= 'Z' && a as int == b as int + 32)
  }

  /** Two strings that differ at most in the case of ASCII letters. */
  predicate SameUpToCase(a: string, b: string) {
    |a| == |b| && forall i :: 0 <= i < |a| ==> SameCharUpToCase(a[i], b[i])
  }

  /** Lower-casing keeps the length, leaves no upper-case letter behind and
      changes nothing but the case of letters. */
  lemma ToLowerSpec(s: string)
    ensures |ToLower(s)| == |s|
    ensures forall i :: 0 <= i < |s| ==> !('A' <= ToLower(s)[i] <= 'Z')
    ensures SameUpToCase(s, ToLower(s))
  {
  }

  /** Two strings lower-case alike exactly when they differ only in the case
      of letters. */
  lemma LowersAlikeIffSameUpToCase(a: string, b: string)
    ensures ToLower(a) == ToLower(b) <==> SameUpToCase(a, b)
  {
    if SameUpToCase(a, b) {
      forall i | 0 <= i < |a| ensures ToLower(a)[i] == ToLower(b)[i] {
        assert SameCharUpToCase(a[i], b[i]);
      }
    }
    if ToLower(a) == ToLower(b) {
      forall i | 0 <= i < |a| ensures SameCharUpToCase(a[i], b[i]) {
        assert LowerChar(a[i]) == ToLower(a)[i] == ToLower(b)[i] == LowerChar(b[i]);
      }
    }
  }

  /** POSIX `os.path.basename`: the part after the last `/`. */
  function Basename(p: string): string
    decreases |p|
  {
    if |p| == 0 || p[|p| - 1] == '/' then "" else Basename(p[..|p| - 1]) + [p[|p| - 1]]
  }

  /** The basename is the longest suffix of `p` without a `/`: it is a suffix,
      it holds no `/`, and the character just before it, if any, is `/`. */
  lemma {:induction false} BasenameSpec(p: string)
    ensures |Basename(p)| <= |p|
    ensures Basename(p) == p[|p| - |Basename(p)|..]
    ensures '/' !in Basename(p)
    ensures |Basename(p)| < |p| ==> p[|p| - |Basename(p)| - 1] == '/'
    decreases |p|
  {
    if |p| == 0 || p[|p| - 1] == '/' {
    } else {
      var q := p[..|p| - 1];
      BasenameSpec(q);
      assert Basename(p) == Basename(q) + [p[|p| - 1]];
      assert q[|q| - |Basename(q)|..] + [p[|p| - 1]] == p[|p| - |Basename(p)|..];
      if |Basename(p)| < |p| {
        assert p[|p| - |Basename(p)| - 1] == q[|q| - |Basename(q)| - 1];
      }
    }
  }

  /** A name without `/` is its own basename. */
  lemma {:induction false} BasenameOfPlainName(p: string)
    requires '/' !in p
    ensures Basename(p) == p
    decreases |p|
  {
    if |p| > 0 {
      var q := p[..|p| - 1];
      assert '/' !in q by {
        forall k | 0 <= k < |q| ensures q[k] != '/' { assert q[k] == p[k]; }
      }
      BasenameOfPlainName(q);
      assert q + [p[|p| - 1]] == p;
    }
  }

  /** `sep.join(parts)`. */
  function Join(parts: seq<string>, sep: string): string
    decreases |parts|
  {
    if |parts| == 0 then ""
    else if |parts| == 1 then parts[0]
    else parts[0] + sep + Join(parts[1..], sep)
  }

  /** Every joined part occurs in the joined text. */
  lemma {:induction false} JoinContainsParts(parts: seq<string>, sep: string, k: nat)
    requires k < |parts|
    ensures Contains(Join(parts, sep), parts[k])
    decreases |parts|
  {
    if |parts| == 1 {
      ContainsSelf(parts[0]);
    } else if k == 0 {
      ContainsSelf(parts[0]);
      ContainsInfix("", parts[0], sep + Join(parts[1..], sep), parts[0]);
      assert "" + parts[0] + (sep + Join(parts[1..], sep)) == Join(parts, sep);
    } else {
      JoinContainsParts(parts[1..], sep, k - 1);
      ContainsInfix(parts[0] + sep, Join(parts[1..], sep), "", parts[k]);
      assert parts[0] + sep + Join(parts[1..], sep) + "" == Join(parts, sep);
    }
  }

  /** The parts one after another: `"".join(parts)` on strings. */
  function Concat<T>(parts: seq<seq<T>>): seq<T>
    decreases |parts|
  {
    if |parts| == 0 then [] else parts[0] + Concat(parts[1..])
  }

  /** The concatenation is the parts before `k`, part `k`, and the parts after it. */
  lemma {:induction false} ConcatSplit<T>(parts: seq<seq<T>>, k: nat)
    requires k < |parts|
    ensures Concat(parts) == Concat(parts[..k]) + parts[k] + Concat(parts[k + 1..])
    decreases |parts|
  {
    if k == 0 {
      assert parts[..0] == [];
      assert parts[1..] == parts[k + 1..];
    } else {
      var rest := parts[1..];
      ConcatSplit(rest, k - 1);
      assert rest[k - 1] == parts[k];
      assert rest[k..] == parts[k + 1..];
      assert parts[..k][0] == parts[0];
      assert parts[..k][1..] == rest[..k - 1];
    }
  }

  /** The concatenation is that of all parts but the last, then the last. */
  lemma ConcatSnoc<T>(parts: seq<seq<T>>)
    requires |parts| > 0
    ensures Concat(parts) == Concat(parts[..|parts| - 1]) + parts[|parts| - 1]
  {
    ConcatSplit(parts, |parts| - 1);
    assert parts[|parts|..] == [];
  }

  /** Every character of a substring that occurs is a character of the
      string. */
  lemma ContainedCharsOccur(s: string, sub: string, c: char)
    requires Contains(s, sub) && c in sub
    ensures c in s
  {
    ContainsSpec(s, sub);
    var i :| OccursAt(sub, s, i);
    var j :| 0 <= j < |sub| && sub[j] == c;
    assert s[i..i + |sub|][j] == s[i + j];
  }

  /** Whatever occurs in one part occurs in the concatenation. */
  lemma ConcatContainsPart(parts: seq<string>, k: nat, sub: string)
    requires k < |parts| && Contains(parts[k], sub)
    ensures Contains(Concat(parts), sub)
  {
    ConcatSplit(parts, k);
    ContainsInfix(Concat(parts[..k]), parts[k], Concat(parts[k + 1..]), sub);
  }

  function DigitChar(d: nat): char
    requires d < 10
  {
    "0123456789"[d]
  }

  /** Python's `str(n)` for a non-negative integer. */
  function NatToString(n: nat): string
    decreases n
  {
    if n < 10 then [DigitChar(n)] else NatToString(n / 10) + [DigitChar(n % 10)]
  }

  /** The value of a decimal digit character. */
  ghost function DigitValue(c: char): nat {
    if '0' <= c <= '9' then c as int - '0' as int else 0
  }

  /** The number a string of decimal digits denotes, most significant first. */
  ghost function DecimalValue(s: string): nat
    decreases |s|
  {
    if |s| == 0 then 0 else DecimalValue(s[..|s| - 1]) * 10 + DigitValue(s[|s| - 1])
  }

  lemma DigitCharValue(d: nat)
    requires d < 10
    ensures '0' <= DigitChar(d) <= '9' && DigitValue(DigitChar(d)) == d
    ensures DigitChar(d) == '0' <==> d == 0
  {
  }

  /** `str(n)` is a non-empty string of decimal digits without a leading zero
      (except for `0` itself) whose decimal value is `n`. */
  lemma {:induction false} NatToStringSpec(n: nat)
    ensures |NatToString(n)| > 0
    ensures forall i :: 0 <= i < |NatToString(n)| ==> '0' <= NatToString(n)[i] <= '9'
    ensures NatToString(n)[0] == '0' <==> n == 0
    ensures DecimalValue(NatToString(n)) == n
    decreases n
  {
    DigitCharValue(n % 10);
    if n >= 10 {
      var s := NatToString(n);
      var h := NatToString(n / 10);
      NatToStringSpec(n / 10);
      assert s == h + [DigitChar(n % 10)];
      assert s[..|s| - 1] == h;
      assert s[0] == h[0];
    }
  }
}

=== FILE: wrappers.dfy ===
/** Optional values: an environment variable that may be unset, a key that
    may be absent from a JSON object. */
module Wrappers {

  datatype Option<+T> = None | Some(value: T) {

    /** The value, or `default` when there is none (Python's `dict.get(k, default)`). */
    function GetOr(default: T): T {
      match this
      case Some(v) => v
      case None => default
    }
  }
}
